=== FILE: README.md ===
# Alarm scheduler (timer.c / timer.h) in Dafny

The scheduler keeps up to MAX_CALL_BACKS (64) alarm callbacks in a static pool
`callBackArr` and threads two singly-linked lists through it with 8-bit `next`
indices that end at NULL_SENTINEL (0xFF):
- a free list, in no particular order;
- a used list, meant to be sorted by the tick at which each callback is due.

`callBackManager` holds the two heads and the number of scheduled callbacks.
`timerNow` counts timer interrupts and wraps at 2^32.

The operations are:
- `requestAlarm(delay, fn)`: checks its arguments, then inserts `fn` at tick `timerNow + delay`.
- `insertStaticLinkedList`: pops a free slot and links it into the used list after a lag/lead scan.
- `intTimer0`: the interrupt handler. It advances the counter and is meant to fire every due callback at the head of the used list, moving its slot to the free list.
- `initAlarm`: threads every slot onto the free list.

The project has six modules:

- `TimerH` (`timer_h.dfy`): the constants of timer.h, the slot and manager records, and 8-bit and 32-bit wrap-around arithmetic.
- `StaticLists` (`static_lists.dfy`): lists threaded by index through the pool. It covers:
  - `ListFrom`, which walks `next` from a head;
  - `IsChain`, a non-recursive description of the same list;
  - `Partition`, meaning the two lists together hold every slot exactly once;
  - the tick and callback sequences along a list.
- `AlarmSpec` (`alarm_spec.dfy`): each function of timer.c as a function from one state of the globals to the next, written **as the source writes it**, plus lemmas saying what each does to the two lists. Together these lemmas expose the defects listed under Findings.
- `AlarmCorrected` (`corrected.dfy`): the same operations with those defects repaired. It proves the design invariants of timer.h for them:
  - the lists partition the pool;
  - the used list is sorted;
  - the count equals the used list's length;
  - the `used` flags match the used list.

  It also proves what each operation does to the lists: an insert puts the new slot after exactly the entries due strictly earlier, and a tick fires exactly the prefix whose tick the counter has reached, in order, so an alarm whose tick is already behind the counter is not skipped. These repaired operations are a deliberate deviation from the code, kept separate from it.
- `AlarmTimer` (`alarm_timer.dfy`): class `Scheduler`.
  - The globals are its fields, with the pool an `array<Slot>`.
  - Each function of timer.c is a method with the source's loops and loop invariants.
  - Each method ensures that the new state equals what the matching `AlarmSpec` function computes from the old state.
  - A ghost field `fired` records the callbacks called.
- `Scenario` (`scenario.dfy`): the worked example in timer.h's design notes. After `initAlarm` and three ticks, five requests are made and then two ticks follow. The example is worked through once with the operations as written and once with the repaired ones.

The code adds the delay to the current tick (timer.c:231). So the example's requests (2, 4, 2, 5, 3 at tick 3) fall due at ticks 5, 7, 5, 8 and 6. The comment in timer.h:21 lists 5, 5, 8, 9 and 10 instead. The model follows the code:
- As written, the used list ends up holding ticks 5, 5, 6 and 8. The tick-7 foo is lost.
- The repaired insert gives 5, 5, 6, 7, 8.

## Model

| member | source | states |
|---|---|---|
| TimerH.IsSlotIndex | timer.h:49-53 | a slot index is below MAX_CALL_BACKS, so it fits in a byte and never equals NULL_SENTINEL |
| TimerH.AddU32 | timer.c:231 | `uint32_t` addition: the plain sum when it fits, the sum minus 2^32 when it overflows |
| TimerH.IncU8 | timer.c:158 | `uint8_t` increment: one more, except that 255 wraps to 0 |
| TimerH.DecU8 | timer.c:177 | `uint8_t` decrement: one less, except that 0 wraps to 255 |
| StaticLists.AllSlots | timer.c:35-44 | the list of every slot index in ascending order, i.e. the free list `initAlarm` builds |
| StaticLists.ListFrom | timer.h:51-53 | following `next` from a head finds, when it reaches the sentinel within the bound, a chain of in-pool slots each linking to the next and the last to NULL_SENTINEL |
| StaticLists.ChainListFrom | timer.h:51-53 | conversely every such chain no longer than the pool is exactly what the walk finds |
| StaticLists.ChainUnique | timer.h:51-53 | a head and the pool's links determine the list |
| StaticLists.ChainTail | timer.c:86 | removing the head of a chain leaves the chain that starts at the head's `next` |
| StaticLists.ChainSplice | timer.c:141-155 | relinking the lag to a new slot that links on to B turns chain A+D+B (D at most one slot) into A+[n]+B |
| StaticLists.PartitionFacts | timer.h:65-68 | when the two lists hold every slot once, their lengths add up to 64, neither repeats a slot, they are disjoint and together cover exactly the indices 0..63 |
| StaticLists.PartitionSplice | timer.c:136 | taking the free head and putting it anywhere in the used list keeps the partition |
| StaticLists.CountBelow | timer.c:120 | the length of the leading run of ticks strictly below `time`: every tick before it is below, the one at it is not |
| AlarmSpec.ListsPartitionPool | timer.h:65-68 | in a consistent state the used and free lists found by the walks are disjoint, together cover every index, and their lengths sum to MAX_CALL_BACKS |
| AlarmSpec.ConsistentLists | timer.h:5-7 | lists named by the invariant are the ones the walks from the two heads find |
| AlarmSpec.InitSlots | timer.c:33-44 | no contract of its own: the slots after the `initAlarm` loop; InitAlarmResets states that they chain 0,1,…,63 to the sentinel with every flag clear |
| AlarmSpec.InitAlarm | timer.c:18-50 | no contract of its own: `initAlarm` as a function of the state; InitAlarmResets and InitAlarmIdempotent state what it does |
| AlarmSpec.InitAlarmResets | timer.c:18-50 | after `initAlarm` the used list is empty, the free list is 0,1,…,63, every `used` flag is clear, the count is 0 and the tick counter is untouched |
| AlarmSpec.InitAlarmIdempotent | timer.c:18-50 | calling `initAlarm` twice leaves the same state as calling it once |
| AlarmSpec.PopHeadFree | timer.c:54-64 | no contract of its own: `popHeadStaticFreeLinkedList`; PopHeadFreeTakesFirst states what it returns and leaves |
| AlarmSpec.PopHeadFreeTakesFirst | timer.c:54-64 | `popHeadStaticFreeLinkedList` returns the first free slot, leaves the rest of the free list at the head, and changes nothing else |
| AlarmSpec.PopHeadUsed | timer.c:80-90 | no contract of its own: `popHeadStaticUsedLinkedList`; PopHeadUsedTakesFirst states what it returns and leaves |
| AlarmSpec.PopHeadUsedTakesFirst | timer.c:80-90 | `popHeadStaticUsedLinkedList` returns the first used slot, leaves the rest of the used list at the head, and changes nothing else |
| AlarmSpec.InsertHeadFree | timer.c:68-75 | no contract of its own: `insertHeadStaticFreeLinkedList`; InsertHeadFreePushes states the new state and the pushed free list |
| AlarmSpec.InsertHeadFreePushes | timer.c:68-75 | `insertHeadStaticFreeLinkedList` pushes the slot in front of the free list: only `freeHead` and the slot's `next` change (used head, count, counter and the slot's tick, flag and callback are kept), and every chain avoiding the slot is unchanged |
| AlarmSpec.ScanStop | timer.c:117-131 | the lag/lead scan stops with the lag on a slot index and the lead on a slot index or at the sentinel |
| AlarmSpec.ScanStopIn | timer.c:117-131 | the same, for a state satisfying the design invariant with a non-zero, non-full count |
| AlarmSpec.InsertAsWritten | timer.c:95-159 | the insert keeps the tick counter, increments the 8-bit count, advances the free head, stores the tick and callback in the old free head, and on a non-empty list never moves the used head |
| AlarmSpec.EmptyBranchConsistent | timer.c:97-110 | that state satisfies the design invariant with used list [free head] and the rest of the free list |
| AlarmSpec.InsertIntoEmptyList | timer.c:97-110 | inserting into an empty scheduler gives used list [first free slot], free list the rest, count 1, and leaves every other slot's payload alone |
| AlarmSpec.LinkAsWritten | timer.c:136-155 | no contract of its own: the non-empty branch after the scan; LinkAfter, HeadSpliced and DropSpliced state the lists it leaves in each case |
| AlarmSpec.LinkAfter | timer.c:136-155 | linking a free slot after the prefix A of used list A+D+B and before B yields used chain A+[n]+B and free chain F[1..] |
| AlarmSpec.SortedInsert | timer.h:5-8 | inserting a tick between the entries at or below it and those at or above it keeps the used list's ticks sorted |
| AlarmSpec.SplicedConsistent | timer.c:136-155 | when the new slot lands between the entries at or below its tick and those at or above it, the design invariant holds afterwards with used list A+[n]+B |
| AlarmSpec.InsertAfterAllKeepsInvariant | timer.c:117-158 | as written, an insert later than every scheduled tick appends the new slot to the used list and keeps the design invariant |
| AlarmSpec.InsertTieAtHeadKeepsInvariant | timer.c:117-158 | as written, an insert equal to the head's tick goes second, and the invariant holds |
| AlarmSpec.TieSpliced | timer.c:141-155 | the state of that tie case satisfies the invariant with used list [head, new] + rest |
| AlarmSpec.HeadSpliced | timer.c:141-155 | when the scan stops at the head, the link step puts the new slot second, whatever its tick |
| AlarmSpec.InsertBelowHeadMisorders | timer.c:117-155 | as written, an insert earlier than the head's tick goes second and the used list is no longer sorted |
| AlarmSpec.DropSpliced | timer.c:147 | when the lead is a later entry of the list, the link step replaces it: the lead is on neither list afterwards |
| AlarmSpec.InsertBeforeLaterEntryDropsIt | timer.c:117-158 | as written, an insert whose scan stops at an entry behind the head loses that entry: it is on neither list, the lists hold 63 slots, and the count exceeds the used list's length by one |
| AlarmSpec.InsertIntoEmptyLeavesFlagClear | timer.c:97-110 | as written, inserting into an empty scheduler leaves the new slot's `used` flag clear, so flags and used list disagree |
| AlarmSpec.FireHeadAsWritten | timer.c:175-181 | one pass of the IRQ loop calls the head's callback, decrements the count, frees the head, and makes the old free head the new used head; only the head slot changes, keeping its tick and callback, with its flag cleared and its `next` the old free head |
| AlarmSpec.FiredHeadLists | timer.c:179-181 | after one pass the used list is the old free list and the free list is the fired slot followed by the old free list |
| AlarmSpec.DoubledNotPartition | timer.h:65-68 | a used list F and free list [h]+F never partition the pool |
| AlarmSpec.TailOffBoth | timer.h:65-68 | the entries after the head of a used list are on neither the free list nor equal to the head |
| AlarmSpec.HeadDue | timer.c:173 | no contract of its own: the loop test, a used head inside the pool whose tick equals the counter; StaleRequestMissedAsWritten states what the exact comparison misses |
| AlarmSpec.TickReady | timer.c:162-191 | no contract of its own: the inputs on which the loop of `intTimer0` stops and, apart from the loop test's read of slot 0xFF when the used head is the sentinel (see HeadDue under Left out), reads only inside the pool; TickCyclesAsWritten and SelfLoopCyclesAsWritten state the two shapes it excludes |
| AlarmSpec.TickAsWritten | timer.c:162-191 | `intTimer0` advances the 32-bit counter and, when the loop stops, calls at most one callback; with a zero count it only advances the counter |
| AlarmSpec.TickNothingDueKeepsInvariant | timer.c:162-191 | a tick at which the used head is not due calls nothing and keeps the pool, lists and invariant |
| AlarmSpec.TickFiresHeadAsWritten | timer.c:173-189 | as written, a due head is called once, and afterwards the used list is the old free list, so the pending entries after the head are on neither list and the lists no longer partition the pool |
| AlarmSpec.TickCyclesAsWritten | timer.c:173-189 | as written, when the old free head is a different slot that is due too, the loop cycles between the two slots, calling their callbacks alternately and never stopping |
| AlarmSpec.SelfLoopCyclesAsWritten | timer.c:173-181 | as written, when the due used head is also the free head, the pass links the slot to itself (timer.c:68-75) and line 181 makes it the used head again; it stays due and every further pass only decrements the count, calling the same callback for ever |
| AlarmSpec.FireThenInsertAliasesHeadsAsWritten | timer.c:173-181 | as written, a tick that fires the head of a list of two or more entries, followed by an accepted request, leaves the used head and the free head on the same slot F[0], the shape SelfLoopCyclesAsWritten starts from |
| AlarmSpec.RequestAlarmAsWritten | timer.c:196-240 | `requestAlarm` fails exactly when the callback is NULL or the count is at MAX_CALL_BACKS, and then changes nothing; on success the count grows by one, the counter is untouched, and the old free head holds the callback at tick `timerNow + delay` modulo 2^32 |
| AlarmSpec.RequestOnEmptyAccepted | timer.c:196-240 | a request with a callback on an empty scheduler succeeds and schedules that callback at `timerNow + delay` in the first free slot |
| AlarmCorrected.InsertCorrected | timer.c:95-159 | repaired insert: keeps the counter, increments the count, and takes the free head |
| AlarmCorrected.InsertCorrectedAtHeadIs | timer.c:97-131 | repaired insert with the scan at the head: the new slot is pushed in front of the used list |
| AlarmCorrected.InsertCorrectedAfterIs | timer.c:136-155 | repaired insert otherwise: the new slot links to the lead and the lag links to the new slot |
| AlarmCorrected.PushedChains | timer.c:97-110 | pushing a free slot in front of the used list yields used chain [n]+U and free chain F[1..] |
| AlarmCorrected.PushedConsistent | timer.h:5-8 | such a push of a tick not above any scheduled one keeps the design invariant |
| AlarmCorrected.FlagsAfterInsert | timer.c:153 | marking the inserted slot used keeps the flags in step with the grown used list |
| AlarmCorrected.InsertCorrectedKeepsInvariant | timer.c:95-159 | the repaired insert puts the new slot after exactly the CountBelow entries due strictly earlier, keeps the invariant, fills the slot with tick, callback and `used`, and leaves every other payload alone |
| AlarmCorrected.InsertCorrectedAtHeadKeeps | timer.c:95-131 | the same when no entry is due earlier: the new slot becomes the head |
| AlarmCorrected.InsertCorrectedAfterKeeps | timer.c:117-155 | the same when some entry is due earlier |
| AlarmCorrected.InsertCorrectedPairs | timer.c:95-159 | after the repaired insert the ticks along the used list are the old ticks with `time` spliced in at CountBelow, and the same holds for the callbacks |
| AlarmCorrected.InsertCorrectedKeepsValid | timer.h:5-7 | the repaired insert keeps the invariant with flags, adds the old free head to the used list, drops it from the free list, and stores tick and callback |
| AlarmCorrected.FireHeadCorrected | timer.c:175-180 | repaired IRQ pass: calls the head's callback, decrements the count, frees the head, and makes the head's successor the used head; only the head slot changes, keeping its tick and callback, with its flag cleared and its `next` the old free head |
| AlarmCorrected.FiredCorrectedChains | timer.c:179-180 | after the repaired pass the used chain is U[1..] and the free chain is [U[0]]+F |
| AlarmCorrected.FiredCorrectedConsistent | timer.h:30-33 | the repaired pass keeps the design invariant and touches no tick or callback |
| AlarmCorrected.FireHeadCorrectedKeeps | timer.h:30-33 | the same, stated for the pass as a function |
| AlarmCorrected.FlagsAfterFire | timer.c:176 | clearing the fired head's flag keeps the flags in step with U[1..] |
| AlarmCorrected.FireDue | timer.c:173-189 | the repaired loop (firing while the head's tick has been reached) keeps the counter and calls at most as many callbacks as it has passes |
| AlarmCorrected.FireDueKeepsInvariant | timer.c:173-189 | the repaired loop fires exactly the leading run of used entries whose tick has been reached: it calls their callbacks in list order, leaves the rest as the used list, and pushes the fired slots onto the free list, last fired first |
| AlarmCorrected.FireDueClearsFlags | timer.c:176 | the repaired loop clears exactly the fired slots' flags |
| AlarmCorrected.FireDueNothingDue | timer.c:173 | when the head's tick lies ahead of the counter the repaired loop fires nothing |
| AlarmCorrected.TickCorrected | timer.c:162-191 | repaired `intTimer0` advances the 32-bit counter; with a zero count it does nothing else |
| AlarmCorrected.DueCount | timer.c:173 | the length of the leading run of ticks not above `now`: every tick before it is at most `now`, the one at it is later |
| AlarmCorrected.TickCorrectedKeepsInvariant | timer.c:162-191 | a repaired tick fires, in order, the DueCount entries at the head whose tick the new counter has reached, keeps the invariant with used list U[j..] and free list reverse(U[..j])+F, and leaves the new used head (if any) ahead of the counter |
| AlarmCorrected.TickCorrectedKeepsValid | timer.h:26-33 | a repaired tick keeps the invariant with flags, drops the reached prefix from the used list, and calls exactly its callbacks |
| AlarmSpec.FullPoolFireLeavesInsertUnready | timer.c:173-181 | as written, when all 64 slots are in use and the head fires, the tick calls it once and leaves count 63 over an empty used list (used head 0xFF) with the fired slot as the whole free list, a state InsertReady excludes and TickReady admits |
| AlarmSpec.StaleRequestMissedAsWritten | timer.c:173 | as written, a request with delay 0 on an empty scheduler is not called at the next tick: it stays the used head with a tick behind the counter |
| AlarmSpec.StaleHeadBlocksAsWritten | timer.c:173 | as written, a used head whose tick the counter has passed holds back the entry behind it: that entry is due at the new tick, yet nothing is called and the lists stay |
| AlarmCorrected.StaleRequestFiresCorrected | timer.c:162-191 | with the repaired tick, a request with delay 0 is called at the next tick, as the only callback, leaving the used list empty |
| AlarmCorrected.RequestAlarmCorrected | timer.c:196-240 | repaired `requestAlarm` fails exactly on a NULL callback or a full pool, and then changes nothing |
| AlarmCorrected.RequestAlarmCorrectedKeepsValid | timer.c:196-240 | a repaired request keeps the invariant with flags, succeeds exactly when the callback is set and fewer than 64 are scheduled, and then schedules the callback at `timerNow + delay` in the old free head |
| AlarmCorrected.RequestAlarmCorrectedInserts | timer.c:196-240 | a successful repaired request splices tick `timerNow + delay` and the callback into the used list after the entries due strictly earlier |
| AlarmCorrected.InitAlarmValid | timer.c:18-50 | `initAlarm` establishes the invariant with flags and an empty used list |
| AlarmTimer.Scheduler.constructor | timer.c:9-15 | the globals as C zero-initialises them: 64 all-zero slots, an all-zero manager, counter 0 |
| AlarmTimer.Scheduler.InitAlarm | timer.c:18-50 | the loop and the fix-ups leave exactly the state AlarmSpec.InitAlarm computes, in place |
| AlarmTimer.Scheduler.PopHeadStaticFreeLinkedList | timer.c:54-64 | the state and the index PopHeadFree computes |
| AlarmTimer.Scheduler.InsertHeadStaticFreeLinkedList | timer.c:68-75 | the state InsertHeadFree computes |
| AlarmTimer.Scheduler.PopHeadStaticUsedLinkedList | timer.c:80-90 | the state and the index PopHeadUsed computes |
| AlarmTimer.Scheduler.ScanUsedList | timer.c:117-131 | the scan loop stops with the lead at the first used entry whose tick is not below `time` (the sentinel if none) and the lag one behind it, or at the head |
| AlarmTimer.Scheduler.InsertStaticLinkedList | timer.c:95-159 | the state InsertAsWritten computes |
| AlarmTimer.Scheduler.LinkAfterScan | timer.c:136-155 | the state the link step computes, before the count is incremented |
| AlarmTimer.Scheduler.IntTimer0 | timer.c:162-191 | the state TickAsWritten computes, with the called callbacks appended to `fired` in order |
| AlarmTimer.Scheduler.RequestAlarm | timer.c:196-240 | the state and the result RequestAlarmAsWritten computes |
| Scenario.PowerUp | timer.c:9-15 | the zeroed statics: 64 slots with tick 0 and counter 0 |
| Scenario.BootReachesBooted | timer.h:9-10 | `initAlarm` and three ticks reach counter 3 with nothing scheduled and every slot free |
| Scenario.EmptyStep | timer.c:97-110 | as written, the first insert gives used list [F[0]] with its tick and callback |
| Scenario.AppendStep | timer.c:141-144 | as written, an insert later than every entry is appended with its tick and callback |
| Scenario.TieStep | timer.c:117-155 | as written, an insert tying the head goes second |
| Scenario.DropStep | timer.c:147 | as written, an insert whose scan stops behind the head loses the lead entry |
| Scenario.DropStepPairs | timer.c:147 | and the ticks and callbacks along the new used list are the old ones with the lead's replaced by the new entry's |
| Scenario.ReplacedTicks | timer.c:147 | replacing entry k of a list by a fresh slot replaces the k-th tick and callback |
| Scenario.FirstAsWritten | timer.h:12 | request (2, foo) at tick 3 as written: used list [0] at tick 5 |
| Scenario.SecondAsWritten | timer.h:13 | request (4, foo): used list [0, 1] at ticks 5, 7 |
| Scenario.ThirdAsWritten | timer.h:14 | request (2, foo): used list [0, 2, 1] at ticks 5, 5, 7 |
| Scenario.FourthAsWritten | timer.h:15 | request (5, bar): used list [0, 2, 1, 3] at ticks 5, 5, 7, 8 |
| Scenario.InsertBazAsWritten | timer.h:16 | request (3, baz) as written: used list [0, 2, 4, 3] at ticks 5, 5, 6, 8; the tick-7 foo in slot 1 is on neither list while the count is 5 |
| Scenario.FifthAsWritten | timer.h:16 | the same as the fifth request |
| Scenario.ScenarioRequestsAsWritten | timer.h:9-24 | the five requests as written, from the booted state, end in that state |
| Scenario.ScenarioTicksAsWritten | timer.h:26-28 | as written, the next tick fires nothing and the one after fires foo once (not twice), after which the used head is the old free head 5 |
| Scenario.CorrectedRequest | timer.c:196-240 | a repaired request at tick 3 splices its tick and callback into the used list at CountBelow |
| Scenario.FirstCorrected | timer.h:12 | repaired request (2, foo): used list [0] at tick 5 |
| Scenario.SecondCorrected | timer.h:13 | repaired request (4, foo): used list [0, 1] at ticks 5, 7 |
| Scenario.ThirdCorrected | timer.h:14 | repaired request (2, foo): used list [2, 0, 1] at ticks 5, 5, 7 |
| Scenario.FourthCorrected | timer.h:15 | repaired request (5, bar): used list [2, 0, 1, 3] at ticks 5, 5, 7, 8 |
| Scenario.FifthCorrected | timer.h:16 | repaired request (3, baz): used list [2, 0, 4, 1, 3] at ticks 5, 5, 6, 7, 8 |
| Scenario.ScenarioRequestsCorrected | timer.h:18-24 | the five repaired requests give a sorted used list of all five callbacks |
| Scenario.PairsCut | timer.c:173-189 | cutting a used list at j cuts its ticks and callbacks at j |
| Scenario.TickPairs | timer.c:162-191 | a repaired tick calls the callbacks of the due prefix and keeps the ticks and callbacks of the rest |
| Scenario.FirstTickCorrected | timer.h:26-27 | the first repaired tick after the requests fires nothing and reaches tick 4 |
| Scenario.SecondTickCorrected | timer.h:27-33 | the second fires foo twice and leaves baz, foo, bar at ticks 6, 7, 8, with the two freed slots at the head of the free list |
| Scenario.ScenarioTicksCorrected | timer.h:26-33 | the two ticks together, repaired: nothing at tick 4, foo twice at tick 5 |

## Left out

- Hardware setup (timer.c:20-26) and `stopTimer`/`startTimer` (timer.h:80-81), which timer.h declares but never implements: they configure the timer peripheral and have no state in this model.
- The critical section of `requestAlarm` (timer.c:225, 237) and the `volatile` counter: every operation is modelled as atomic, and concurrency with the interrupt is not modelled.
- The `printf` in `insertStaticLinkedList` (timer.c:138): output only.
- Callback effects: a callback is an opaque number (0 is NULL), and calling one only appends it to the ghost log `fired`.
- The complexity claims (timer.h:35-38) are not stated.
- The `delay > UINT32_MAX` test (timer.c:207-212) can never hold for a `uint32_t`. The model keeps the test, and it never fails.
- AlarmSpec.TickAsWritten: requires TickReady, which excludes the two shapes of input on which the loop as written never stops: a due free head that is another slot (TickCyclesAsWritten) and a due used head that is also the free head (SelfLoopCyclesAsWritten). The second is reachable (FireThenInsertAliasesHeadsAsWritten) and loops once that slot is due.
- AlarmTimer.Scheduler.IntTimer0: requires TickReady, as AlarmSpec.TickAsWritten does, although the handler accepts any state; it leaves out the same two non-terminating shapes, a due free head that is another slot and a due used head that is also the free head.
- AlarmSpec.InsertAsWritten: requires InsertReady: a free slot, and, when the count is not zero, a non-empty used list that reaches the sentinel. It excludes a non-zero count over an empty used list, where the source reads the slot at index 0xFF (timer.c:120). That state is reachable: when every slot is in use and the head fires, the timer.c:181 defect makes the used head the sentinel while the count drops to 63 (FullPoolFireLeavesInsertUnready). It also excludes a used list that leaves the pool, where the source reads outside it. It also excludes a used list that runs in a cycle, where the source's scan may never stop. Such a cycle is reachable: after the timer.c:181 defect the used head can be the free head, and a later insert that stops at that head pops it and links it to itself at timer.c:155.
- AlarmSpec.RequestAlarmAsWritten: requires InsertReady whenever the request would be accepted, so it does not cover a request made after a full pool has fired (the empty used list with count 63 that FullPoolFireLeavesInsertUnready reaches), where the source reads outside the pool.
- AlarmTimer.Scheduler.InsertStaticLinkedList: requires InsertReady, and so leaves out the same post-fire state of a full pool.
- AlarmTimer.Scheduler.RequestAlarm: requires InsertReady whenever the request would be accepted, and so leaves out the same post-fire state of a full pool.
- AlarmSpec.HeadDue: the loop test in timer.c:173 reads the head slot before comparing the head with the sentinel. The model tests the sentinel first. The two agree whenever the source's read is inside the pool. With a non-zero count and the used head at the sentinel, the state FullPoolFireLeavesInsertUnready reaches, the source reads slot 0xFF outside the pool; TickReady admits that state and the model does not capture that read.
- AlarmCorrected.FireDue: bounded by a fuel of MAX_CALL_BACKS passes. TickCorrectedKeepsInvariant shows that this is always enough.
- AlarmCorrected.TickCorrected: compares raw 32-bit ticks. An alarm whose tick wrapped past 2^32 (a large delay) reads as already reached and is called at the next tick instead of after the wrap; the source defines no order on wrapped ticks.
- AlarmCorrected.StaleRequestFiresCorrected: requires the counter below its maximum, because at the wrap the next counter value 0 is below every tick.
- Uint8 count wrap-around: `totalCallBacks` is incremented and decremented modulo 256. The invariant keeps it between 0 and 64, so the wrap never occurs in a consistent state.

## Findings

| source | as written | input that shows it | evidently intended | confidence | as-written member | corrected member |
|---|---|---|---|---|---|---|
| timer.c:147 | the new slot's `next` is the lead's successor, so the lead entry falls off both lists while the count still includes it | used ticks 5, 7; insert tick 6 | the new slot links to the lead itself | not executed | AlarmSpec.InsertBeforeLaterEntryDropsIt | AlarmCorrected.InsertCorrectedKeepsInvariant |
| timer.c:117-155 | when the scan stops at the head, the new slot is linked after the head | used ticks 7; insert tick 5 | the new slot becomes the used head, keeping the list sorted | not executed | AlarmSpec.InsertBelowHeadMisorders | AlarmCorrected.InsertCorrectedKeepsInvariant |
| timer.c:181 | after the push onto the free list, the used head is set to the freed slot's new `next`, i.e. the old free head | used ticks 5, 6; counter goes from 4 to 5 | the used head becomes the fired slot's old successor | not executed | AlarmSpec.TickFiresHeadAsWritten | AlarmCorrected.TickCorrectedKeepsInvariant |
| timer.c:173-189 | with the line-181 defect, the loop cycles when the old free head is also due | a state whose used head and free head are distinct slots, both with the tick the counter is about to reach (for the other shape, a due used head that is also the free head, see the timer.c:179-181 row) | the loop stops after the due prefix | not executed | AlarmSpec.TickCyclesAsWritten | AlarmCorrected.TickCorrectedKeepsInvariant |
| timer.c:97-110 | the empty-list branch leaves `used` as it was | empty scheduler; any request | the inserted slot is marked used, as in timer.c:153 | not executed | AlarmSpec.InsertIntoEmptyLeavesFlagClear | AlarmCorrected.InsertCorrectedKeepsValid |
| timer.c:173 | an alarm fires only when the counter equals its tick, so one whose tick is already behind the counter at its first check (delay 0) is skipped until the counter wraps, and holds back every entry behind it | empty scheduler; `requestAlarm(0, cb)`; one tick | the alarm is called at the first tick at or after its own | not executed | AlarmSpec.StaleRequestMissedAsWritten | AlarmCorrected.StaleRequestFiresCorrected |
| timer.c:179-181 | when the fired slot is also the free head, it is pushed onto the free list linked to itself and made the used head again, so the loop calls it for ever | used ticks 5, 9 with a non-empty free list F; the counter goes from 4 to 5 (the head fires), then any accepted request; F[0] then heads both lists, and with no other call in between the loop never stops at the tick that reaches F[0]'s tick | the used head becomes the fired slot's old successor and the loop stops | not executed | AlarmSpec.SelfLoopCyclesAsWritten | AlarmCorrected.TickCorrectedKeepsInvariant |

=== FILE: alarm_spec.dfy ===
/** The operations of timer.c as functions from one state of the scheduler to
    the next, exactly as the source writes them, and what they do to the free
    list and the used list. The class in module AlarmTimer runs the same
    operations in place and is proved equal to these functions. */
module AlarmSpec {
  import opened TimerH
  import opened StaticLists

  /** Everything timer.c keeps in its globals: the pool `callBackArr`, the
      record `callBackManager` and the tick counter `timerNow`. */
  datatype State = State(slots: seq<Slot>, mgr: Manager, now: U32)

  /** The list that starts at `usedHead`, and the one at `freeHead`. */
  function UsedList(s: State): Option<seq<int>>
  {
    ListFrom(s.slots, s.mgr.usedHead, MaxCallBacks)
  }

  function FreeList(s: State): Option<seq<int>>
  {
    ListFrom(s.slots, s.mgr.freeHead, MaxCallBacks)
  }

  /** The design invariants of timer.h, with the two lists named: `U` is the
      used list and `F` the free list; together they hold every slot once;
      the used list is sorted by fire tick; the count is the used list's length. */
  predicate ConsistentWith(s: State, U: seq<int>, F: seq<int>)
  {
    |s.slots| == MaxCallBacks &&
    IsChain(s.slots, s.mgr.usedHead, U) &&
    IsChain(s.slots, s.mgr.freeHead, F) &&
    Partition(U, F) &&
    Sorted(TicksOf(s.slots, U)) &&
    s.mgr.totalCallBacks == |U|
  }

  /** Every slot's `used` flag is set exactly when the slot is on the used list. */
  predicate FlagsMatch(slots: seq<Slot>, U: seq<int>)
    requires |slots| == MaxCallBacks
  {
    forall x :: 0 <= x < MaxCallBacks ==> (slots[x].used <==> x in U)
  }

  predicate Consistent(s: State)
  {
    UsedList(s).Some? && FreeList(s).Some? &&
    ConsistentWith(s, UsedList(s).value, FreeList(s).value)
  }

  /** The named lists are the ones the walks find. */
  lemma ConsistentLists(s: State, U: seq<int>, F: seq<int>)
    requires ConsistentWith(s, U, F)
    ensures Consistent(s) && UsedList(s) == Some(U) && FreeList(s) == Some(F)
  {
    PartitionFacts(U, F);
    ChainListFrom(s.slots, s.mgr.usedHead, U, MaxCallBacks);
    ChainListFrom(s.slots, s.mgr.freeHead, F, MaxCallBacks);
  }

  /** timer.h: the two lists always account for all MAX_CALL_BACKS slots,
      each slot on exactly one of them. */
  lemma ListsPartitionPool(s: State)
    requires Consistent(s)
    ensures |UsedList(s).value| + |FreeList(s).value| == MaxCallBacks
    ensures forall x :: x in UsedList(s).value ==> x !in FreeList(s).value
    ensures forall x :: 0 <= x < MaxCallBacks <==> x in UsedList(s).value + FreeList(s).value
  {
    PartitionFacts(UsedList(s).value, FreeList(s).value);
  }

  // ---------------------------------------------------------------- initAlarm

  /** The pool after the loop of `initAlarm`: slot i links to i + 1, the last
      slot to the sentinel, and no slot is marked used. */
  function InitSlots(slots: seq<Slot>): (r: seq<Slot>)
    requires |slots| == MaxCallBacks
  {
    seq(MaxCallBacks, i requires 0 <= i < MaxCallBacks =>
      slots[i].(next := if i == MaxCallBacks - 1 then NullSentinel else i + 1, used := false))
  }

  function InitAlarm(s: State): State
    requires |s.slots| == MaxCallBacks
  {
    State(InitSlots(s.slots), Manager(NullSentinel, 0, 0), s.now)
  }

  /** Whatever the state before, `initAlarm` leaves the free list 0, 1, ..., 63,
      an empty used list, a zero count and every slot unused. */
  lemma InitAlarmResets(s: State)
    requires |s.slots| == MaxCallBacks
    ensures ConsistentWith(InitAlarm(s), [], AllSlots())
    ensures UsedList(InitAlarm(s)) == Some([]) && FreeList(InitAlarm(s)) == Some(AllSlots())
    ensures forall i :: 0 <= i < MaxCallBacks ==> !InitAlarm(s).slots[i].used
    ensures InitAlarm(s).now == s.now
  {
    var r := InitAlarm(s);
    var A := AllSlots();
    forall i | 0 <= i < |A|
      ensures LinkAt(r.slots, A, i) && 0 <= A[i] < |r.slots|
    {
    }
    assert IsChain(r.slots, 0, A);
    assert A + [] == A;
    ConsistentLists(r, [], A);
  }

  /** A second `initAlarm` changes nothing more. */
  lemma InitAlarmIdempotent(s: State)
    requires |s.slots| == MaxCallBacks
    ensures InitAlarm(InitAlarm(s)) == InitAlarm(s)
  {
    assert InitSlots(InitSlots(s.slots)) == InitSlots(s.slots);
  }

  // ---------------------------------------------------------- list primitives

  /** popHeadStaticFreeLinkedList: returns the free head and moves the head to its successor. */
  function PopHeadFree(s: State): (State, U8)
    requires 0 <= s.mgr.freeHead < |s.slots|
  {
    (s.(mgr := s.mgr.(freeHead := s.slots[s.mgr.freeHead].next)), s.mgr.freeHead)
  }

  /** insertHeadStaticFreeLinkedList: slot `index` becomes the free head. */
  function InsertHeadFree(s: State, index: U8): State
    requires 0 <= index < |s.slots|
  {
    State(s.slots[index := s.slots[index].(next := s.mgr.freeHead)], s.mgr.(freeHead := index), s.now)
  }

  /** popHeadStaticUsedLinkedList: returns the used head and moves the head to its successor. */
  function PopHeadUsed(s: State): (State, U8)
    requires 0 <= s.mgr.usedHead < |s.slots|
  {
    (s.(mgr := s.mgr.(usedHead := s.slots[s.mgr.usedHead].next)), s.mgr.usedHead)
  }

  /** Popping a non-empty free list yields its first slot and leaves the rest;
      no slot changes. */
  lemma PopHeadFreeTakesFirst(s: State, F: seq<int>)
    requires IsChain(s.slots, s.mgr.freeHead, F) && |F| > 0
    ensures 0 <= s.mgr.freeHead < |s.slots|
    ensures PopHeadFree(s).1 == F[0]
    ensures IsChain(PopHeadFree(s).0.slots, PopHeadFree(s).0.mgr.freeHead, F[1..])
    ensures PopHeadFree(s).0 == s.(mgr := s.mgr.(freeHead := PopHeadFree(s).0.mgr.freeHead))
  {
    ChainTail(s.slots, s.mgr.freeHead, F);
  }

  /** Popping a non-empty used list yields its first slot and leaves the rest;
      no slot changes. */
  lemma PopHeadUsedTakesFirst(s: State, U: seq<int>)
    requires IsChain(s.slots, s.mgr.usedHead, U) && |U| > 0
    ensures 0 <= s.mgr.usedHead < |s.slots|
    ensures PopHeadUsed(s).1 == U[0]
    ensures IsChain(PopHeadUsed(s).0.slots, PopHeadUsed(s).0.mgr.usedHead, U[1..])
    ensures PopHeadUsed(s).0 == s.(mgr := s.mgr.(usedHead := PopHeadUsed(s).0.mgr.usedHead))
  {
    ChainTail(s.slots, s.mgr.usedHead, U);
  }

  /** Pushing a slot that is not on the free list puts it in front of the
      free list; any list that avoids that slot is untouched. */
  lemma InsertHeadFreePushes(s: State, index: U8, F: seq<int>, L: seq<int>, h: int)
    requires |s.slots| == MaxCallBacks
    requires IsChain(s.slots, s.mgr.freeHead, F)
    requires 0 <= index < |s.slots| && index !in F
    requires IsChain(s.slots, h, L) && index !in L
    ensures IsChain(InsertHeadFree(s, index).slots, InsertHeadFree(s, index).mgr.freeHead, [index] + F)
    ensures IsChain(InsertHeadFree(s, index).slots, h, L)
    ensures forall x :: 0 <= x < |s.slots| && x != index ==> InsertHeadFree(s, index).slots[x] == s.slots[x]
    ensures InsertHeadFree(s, index) ==
      s.(slots := s.slots[index := s.slots[index].(next := s.mgr.freeHead)], mgr := s.mgr.(freeHead := index))
  {
    var r := InsertHeadFree(s, index);
    ChainPush(s.slots, r.slots, s.mgr.freeHead, F, index);
    ChainFrame(s.slots, r.slots, h, L);
  }

  // --------------------------------------------------- insertStaticLinkedList

  /** What `insertStaticLinkedList` needs so that every slot it reads is inside
      the pool: a free slot to pop and, when the count is not zero, a
      non-empty used list that reaches the sentinel. A full pool whose head
      fires leaves a non-zero count over an empty used list, which this
      excludes (see FullPoolFireLeavesInsertUnready). */
  predicate InsertReady(s: State)
  {
    |s.slots| == MaxCallBacks && 0 <= s.mgr.freeHead < MaxCallBacks &&
    (s.mgr.totalCallBacks != 0 ==> s.mgr.usedHead != NullSentinel && UsedList(s).Some?)
  }

  /** Where the lag/lead scan stops, given the used list: the lead is the first
      entry whose tick is not below `time` (the sentinel if there is none) and
      the lag is the entry before it, or the head when the lead is the head. */
  function ScanStop(s: State, time: int): (r: (int, int))
    requires InsertReady(s) && s.mgr.totalCallBacks != 0
    ensures IsSlotIndex(r.0) && (r.1 == NullSentinel || IsSlotIndex(r.1))
  {
    var U := UsedList(s).value;
    var k := CountBelow(TicksOf(s.slots, U), time);
    (if k == 0 then U[0] else U[k - 1], if k < |U| then U[k] else NullSentinel)
  }

  /** Where the scan stops, read off the used list. */
  lemma ScanStopOnList(s: State, time: int) returns (U: seq<int>)
    requires InsertReady(s) && s.mgr.totalCallBacks != 0
    ensures U == UsedList(s).value && |U| > 0 && IsChain(s.slots, s.mgr.usedHead, U)
    ensures var k := CountBelow(TicksOf(s.slots, U), time);
      ScanStop(s, time) == (if k == 0 then U[0] else U[k - 1], if k < |U| then U[k] else NullSentinel)
  {
    U := UsedList(s).value;
  }

  /** insertStaticLinkedList as written. An empty count takes the first
      branch: pop a free slot and make it the whole used list (its `used` flag
      is left as it was). Otherwise: scan, pop a free slot, give it the lead's
      successor as its `next` (the sentinel at the end of the list), fill it
      in, and link the lag to it; `usedHead` is never touched. */
  function InsertAsWritten(s: State, time: U32, cb: CallBack): (r: State)
    requires InsertReady(s)
    ensures r.now == s.now && r.mgr.totalCallBacks == IncU8(s.mgr.totalCallBacks)
    ensures s.mgr.totalCallBacks != 0 ==> r.mgr.usedHead == s.mgr.usedHead
    ensures |r.slots| == MaxCallBacks && r.mgr.freeHead == s.slots[s.mgr.freeHead].next
    ensures r.slots[s.mgr.freeHead].ticks == time && r.slots[s.mgr.freeHead].callBackFun == cb
  {
    if s.mgr.totalCallBacks == 0 then
      var (s1, index) := PopHeadFree(s);
      var slot := s1.slots[index].(next := NullSentinel, callBackFun := cb, ticks := time);
      s1.(slots := s1.slots[index := slot],
          mgr := s1.mgr.(usedHead := index, totalCallBacks := IncU8(s1.mgr.totalCallBacks)))
    else
      var (lag, lead) := ScanStop(s, time);
      LinkAsWritten(s, lag, lead, time, cb)
  }

  /** The part of the non-empty branch after the scan stopped at `lag`/`lead`. */
  function LinkAsWritten(s: State, lag: int, lead: int, time: U32, cb: CallBack): (r: State)
    requires |s.slots| == MaxCallBacks && 0 <= s.mgr.freeHead < MaxCallBacks
    requires 0 <= lag < MaxCallBacks && (lead == NullSentinel || 0 <= lead < MaxCallBacks)
  {
    var (s1, insertIndex) := PopHeadFree(s);
    var next := if lead == NullSentinel then NullSentinel else s1.slots[lead].next;
    var slots2 := s1.slots[insertIndex := Slot(time, next, true, cb)];
    var slots3 := slots2[lag := slots2[lag].(next := insertIndex)];
    s1.(slots := slots3, mgr := s1.mgr.(totalCallBacks := IncU8(s1.mgr.totalCallBacks)))
  }

  /** Slots other than `n` keep their tick, callback and flag. */
  predicate PayloadKept(slots: seq<Slot>, slots': seq<Slot>, n: int)
  {
    |slots'| == |slots| &&
    forall x :: 0 <= x < |slots| && x != n ==>
      slots'[x].ticks == slots[x].ticks && slots'[x].callBackFun == slots[x].callBackFun &&
      slots'[x].used == slots[x].used
  }

  /** A slot put between `A` and `B` whose payload is the only one that
      changed: the ticks and callbacks along the new list are the old ones
      with the new slot's in between. */
  lemma SpliceTicks(slots: seq<Slot>, slots': seq<Slot>, A: seq<int>, B: seq<int>, n: int)
    requires PayloadKept(slots, slots', n) && 0 <= n < |slots|
    requires InPool(slots, A) && InPool(slots, B) && n !in A && n !in B
    ensures InPool(slots', A + [n] + B)
    ensures TicksOf(slots', A + [n] + B) == TicksOf(slots, A) + [slots'[n].ticks] + TicksOf(slots, B)
    ensures CallBacksOf(slots', A + [n] + B) == CallBacksOf(slots, A) + [slots'[n].callBackFun] + CallBacksOf(slots, B)
  {
    var L := A + [n] + B;
    forall i | 0 <= i < |L| ensures 0 <= L[i] < |slots'| && (i != |A| ==> L[i] != n) {
      if i < |A| { assert L[i] == A[i]; } else if i > |A| { assert L[i] == B[i - |A| - 1]; }
    }
  }

  /** The free head of a partition is not on the used list. */
  lemma FreeHeadNotUsed(U: seq<int>, F: seq<int>)
    requires Partition(U, F) && |F| > 0
    ensures F[0] !in U
  {
    PartitionFacts(U, F);
    assert F[0] in F;
  }

  /** The empty-list branch of the insert, written out as one state update. */
  lemma InsertEmptyBranch(s: State, time: U32, cb: CallBack)
    requires InsertReady(s) && s.mgr.totalCallBacks == 0
    ensures var n := s.mgr.freeHead;
      InsertAsWritten(s, time, cb) ==
        State(s.slots[n := s.slots[n].(next := NullSentinel, ticks := time, callBackFun := cb)],
              Manager(n, s.slots[n].next, 1), s.now)
  {
  }

  /** The state the empty-list branch produces satisfies the invariants with
      the popped slot as the whole used list. */
  lemma EmptyBranchConsistent(s: State, time: U32, cb: CallBack, U: seq<int>, F: seq<int>)
    requires ConsistentWith(s, U, F) && s.mgr.totalCallBacks == 0
    ensures |F| == MaxCallBacks
    ensures var n := F[0];
      ConsistentWith(State(s.slots[n := s.slots[n].(next := NullSentinel, ticks := time, callBackFun := cb)],
                           Manager(n, s.slots[n].next, 1), s.now), [n], F[1..])
  {
    PartitionFacts(U, F);
    var n := F[0];
    var slots' := s.slots[n := s.slots[n].(next := NullSentinel, ticks := time, callBackFun := cb)];
    ChainTail(s.slots, s.mgr.freeHead, F);
    assert LinkAt(slots', [n], 0);
    assert IsChain(slots', n, [n]);
    assert n !in F[1..] by {
      forall j | 0 <= j < |F[1..]| ensures F[1..][j] != n { assert F[1..][j] == F[j + 1]; }
    }
    forall i | 0 <= i < |F[1..]| ensures NextKept(s.slots, slots', F[1..][i]) {
      assert F[1..][i] in F[1..];
    }
    ChainFrame(s.slots, slots', s.slots[n].next, F[1..]);
    assert U == [];
    assert [n] + F[1..] == F;
    assert U + F == [n] + F[1..];
    assert Sorted(TicksOf(slots', [n]));
  }

  /** Inserting into an empty used list: the popped free slot becomes a
      one-element used list ending at the sentinel, with the given tick and
      callback; the invariants hold afterwards. */
  lemma InsertIntoEmptyList(s: State, time: U32, cb: CallBack, U: seq<int>, F: seq<int>)
    requires ConsistentWith(s, U, F) && s.mgr.totalCallBacks == 0
    ensures InsertReady(s) && |F| == MaxCallBacks
    ensures var r := InsertAsWritten(s, time, cb);
      ConsistentWith(r, [F[0]], F[1..]) &&
      r.mgr.usedHead == F[0] && r.mgr.totalCallBacks == 1 &&
      r.slots[F[0]] == s.slots[F[0]].(next := NullSentinel, ticks := time, callBackFun := cb) &&
      PayloadKept(s.slots, r.slots, F[0])
  {
    PartitionFacts(U, F);
    PopHeadFreeTakesFirst(s, F);
    InsertEmptyBranch(s, time, cb);
    EmptyBranchConsistent(s, time, cb, U, F);
  }

  /** The non-empty branch of the insert: the scan, then the linking. */
  lemma InsertNonEmptyBranch(s: State, time: U32, cb: CallBack)
    requires InsertReady(s) && s.mgr.totalCallBacks != 0
    ensures var stop := ScanStop(s, time);
      InsertAsWritten(s, time, cb) == LinkAsWritten(s, stop.0, stop.1, time, cb)
  {
  }

  /** The linking written out as one state update. */
  lemma LinkAsWrittenIs(s: State, lag: int, lead: int, time: U32, cb: CallBack)
    requires |s.slots| == MaxCallBacks && 0 <= s.mgr.freeHead < MaxCallBacks
    requires 0 <= lag < MaxCallBacks && (lead == NullSentinel || 0 <= lead < MaxCallBacks)
    ensures var n := s.mgr.freeHead;
      var nxt := if lead == NullSentinel then NullSentinel else s.slots[lead].next;
      var slots2 := s.slots[n := Slot(time, nxt, true, cb)];
      LinkAsWritten(s, lag, lead, time, cb) ==
        State(slots2[lag := slots2[lag].(next := n)],
              Manager(s.mgr.usedHead, s.slots[n].next, IncU8(s.mgr.totalCallBacks)), s.now)
  {
  }

  /** Two chains of at most the pool's size are what the list walks return. */
  lemma ChainsGiveLists(r: State, L: seq<int>, F: seq<int>)
    requires IsChain(r.slots, r.mgr.usedHead, L) && IsChain(r.slots, r.mgr.freeHead, F)
    requires |L| <= MaxCallBacks && |F| <= MaxCallBacks
    ensures UsedList(r) == Some(L) && FreeList(r) == Some(F)
  {
    ChainListFrom(r.slots, r.mgr.usedHead, L, MaxCallBacks);
    ChainListFrom(r.slots, r.mgr.freeHead, F, MaxCallBacks);
  }

  /** Where the scan stops, in terms of the used list `U` and the length `k`
      of its run of ticks below `time`. */
  lemma ScanStopIn(s: State, time: U32, U: seq<int>, F: seq<int>)
    requires ConsistentWith(s, U, F) && 0 < s.mgr.totalCallBacks < MaxCallBacks
    ensures InsertReady(s) && UsedList(s) == Some(U) && |U| > 0
    ensures var k := CountBelow(TicksOf(s.slots, U), time);
      ScanStop(s, time) == (if k == 0 then U[0] else U[k - 1], if k < |U| then U[k] else NullSentinel)
  {
    ConsistentLists(s, U, F);
    PartitionFacts(U, F);
    assert LinkAt(s.slots, F, 0);
  }

  /** Filling in free slot `n` and linking it after the last slot of `A`, when
      the used list is `A + D + B`: the used list becomes `A + [n] + B`, the
      free list loses its head, and only `n` changes its payload. */
  lemma LinkAfter(s: State, U: seq<int>, F: seq<int>, A: seq<int>, D: seq<int>, B: seq<int>,
                  time: U32, cb: CallBack, nxt: U8)
    requires ConsistentWith(s, U, F) && |F| > 0
    requires U == A + D + B && |A| > 0 && |D| <= 1
    requires nxt == if |B| == 0 then NullSentinel else B[0]
    ensures 0 <= F[0] < MaxCallBacks && 0 <= A[|A| - 1] < MaxCallBacks
    ensures var n := F[0];
      var lag := A[|A| - 1];
      var slots2 := s.slots[n := Slot(time, nxt, true, cb)];
      var slots3 := slots2[lag := slots2[lag].(next := n)];
      IsChain(slots3, s.mgr.usedHead, A + [n] + B) &&
      IsChain(slots3, s.slots[n].next, F[1..]) &&
      PayloadKept(s.slots, slots3, n) && slots3[n] == Slot(time, nxt, true, cb)
  {
    PartitionFacts(U, F);
    ChainTail(s.slots, s.mgr.freeHead, F);
    var n := F[0];
    var lag := A[|A| - 1];
    assert lag == U[|A| - 1];
    var slots2 := s.slots[n := Slot(time, nxt, true, cb)];
    var slots3 := slots2[lag := slots2[lag].(next := n)];
    assert n !in U;
    assert 0 <= lag < MaxCallBacks by { assert LinkAt(s.slots, U, |A| - 1); }
    assert 0 <= n < MaxCallBacks by { assert LinkAt(s.slots, F, 0); }
    forall i | 0 <= i < |A| - 1 ensures NextKept(s.slots, slots3, A[i]) {
      assert A[i] == U[i] && A[i] in U;
      assert LinkAt(s.slots, U, i);
    }
    forall i | 0 <= i < |B| ensures NextKept(s.slots, slots3, B[i]) {
      assert B[i] == U[|A| + |D| + i] && B[i] in U;
      assert LinkAt(s.slots, U, |A| + |D| + i);
    }
    ChainSplice(s.slots, slots3, s.mgr.usedHead, A, D, B, n);
    forall i | 0 <= i < |F[1..]| ensures NextKept(s.slots, slots3, F[1..][i]) {
      assert F[1..][i] == F[i + 1] && F[i + 1] in F;
      assert LinkAt(s.slots, F, i + 1);
    }
    ChainFrame(s.slots, slots3, s.slots[n].next, F[1..]);
  }

  /** Putting slot `n` with tick `time` between `P` and `Q` keeps a sorted used
      list sorted when `P`'s ticks are at most `time` and `Q`'s at least. */
  lemma SortedInsert(slots: seq<Slot>, slots': seq<Slot>, U: seq<int>, P: seq<int>, Q: seq<int>, n: int, time: int)
    requires InPool(slots, U) && U == P + Q && Sorted(TicksOf(slots, U))
    requires PayloadKept(slots, slots', n) && n !in U && 0 <= n < |slots'| && slots'[n].ticks == time
    requires forall i :: 0 <= i < |P| ==> TicksOf(slots, U)[i] <= time
    requires forall i :: |P| <= i < |U| ==> time <= TicksOf(slots, U)[i]
    ensures InPool(slots', P + [n] + Q) && Sorted(TicksOf(slots', P + [n] + Q))
  {
    var L := P + [n] + Q;
    var T := TicksOf(slots, U);
    forall i | 0 <= i < |L| ensures 0 <= L[i] < |slots'| {
      if i < |P| { assert L[i] == U[i]; } else if i > |P| { assert L[i] == U[i - 1]; }
    }
    var T' := TicksOf(slots', L);
    forall i | 0 <= i < |L|
      ensures T'[i] == if i < |P| then T[i] else if i == |P| then time else T[i - 1]
    {
      if i < |P| {
        assert L[i] == U[i] && U[i] in U;
      } else if i > |P| {
        assert L[i] == U[i - 1] && U[i - 1] in U;
      }
    }
    forall i, j | 0 <= i < j < |L| ensures T'[i] <= T'[j] {
      if j < |P| {
        assert T[i] <= T[j];
      } else if i > |P| {
        assert T[i - 1] <= T[j - 1];
      } else if i == |P| {
        assert time <= T[j - 1];
      } else if j == |P| {
        assert T[i] <= time;
      } else {
        assert T[i] <= T[j - 1];
      }
    }
  }

  /** The state the non-empty branch produces when the scan stops between `A`
      and `B` (nothing dropped) satisfies the invariants. */
  lemma SplicedConsistent(s: State, U: seq<int>, F: seq<int>, A: seq<int>, B: seq<int>,
                          time: U32, cb: CallBack, nxt: U8)
    requires ConsistentWith(s, U, F) && |U| < MaxCallBacks
    requires U == A + B && |A| > 0
    requires nxt == if |B| == 0 then NullSentinel else B[0]
    requires forall i :: 0 <= i < |A| ==> TicksOf(s.slots, U)[i] <= time
    requires forall i :: |A| <= i < |U| ==> time <= TicksOf(s.slots, U)[i]
    ensures |F| > 0 && 0 <= F[0] < MaxCallBacks && 0 <= A[|A| - 1] < MaxCallBacks
    ensures var n := F[0];
      var lag := A[|A| - 1];
      var slots2 := s.slots[n := Slot(time, nxt, true, cb)];
      var slots3 := slots2[lag := slots2[lag].(next := n)];
      ConsistentWith(State(slots3, Manager(s.mgr.usedHead, s.slots[n].next, IncU8(s.mgr.totalCallBacks)), s.now),
                     A + [n] + B, F[1..]) &&
      PayloadKept(s.slots, slots3, n) && slots3[n] == Slot(time, nxt, true, cb)
  {
    PartitionFacts(U, F);
    assert U == A + [] + B;
    LinkAfter(s, U, F, A, [], B, time, cb, nxt);
    var n := F[0];
    var lag := A[|A| - 1];
    var slots2 := s.slots[n := Slot(time, nxt, true, cb)];
    var slots3 := slots2[lag := slots2[lag].(next := n)];
    SortedInsert(s.slots, slots3, U, A, B, n, time);
    PartitionSplice(A, B, F);
  }

  /** When every scheduled tick is below the new one, the insert appends the
      new slot at the tail: the used list grows by that slot, the free list
      loses its head, and the invariants still hold. */
  lemma InsertAfterAllKeepsInvariant(s: State, time: U32, cb: CallBack, U: seq<int>, F: seq<int>)
    requires ConsistentWith(s, U, F) && 0 < |U| < MaxCallBacks
    requires forall i :: 0 <= i < |U| ==> TicksOf(s.slots, U)[i] < time
    ensures InsertReady(s) && |F| > 0
    ensures var r := InsertAsWritten(s, time, cb);
      ConsistentWith(r, U + [F[0]], F[1..]) &&
      r.slots[F[0]] == Slot(time, NullSentinel, true, cb) &&
      PayloadKept(s.slots, r.slots, F[0])
  {
    ScanStopIn(s, time, U, F);
    assert CountBelow(TicksOf(s.slots, U), time) == |U|;
    InsertNonEmptyBranch(s, time, cb);
    assert LinkAt(s.slots, U, |U| - 1);
    LinkAsWrittenIs(s, U[|U| - 1], NullSentinel, time, cb);
    assert U == U + [];
    SplicedConsistent(s, U, F, U, [], time, cb, NullSentinel);
    assert U + [F[0]] == U + [F[0]] + [];
  }

  /** A new tick equal to the head's lands right after the head, which is still
      in order: the invariants hold. */
  lemma InsertTieAtHeadKeepsInvariant(s: State, time: U32, cb: CallBack, U: seq<int>, F: seq<int>)
    requires ConsistentWith(s, U, F) && 0 < |U| < MaxCallBacks
    requires TicksOf(s.slots, U)[0] == time
    ensures InsertReady(s) && |F| > 0
    ensures var r := InsertAsWritten(s, time, cb);
      ConsistentWith(r, [U[0], F[0]] + U[1..], F[1..]) &&
      r.slots[F[0]].ticks == time && r.slots[F[0]].callBackFun == cb && r.slots[F[0]].used &&
      PayloadKept(s.slots, r.slots, F[0])
  {
    ScanStopIn(s, time, U, F);
    InsertNonEmptyBranch(s, time, cb);
    assert LinkAt(s.slots, U, 0);
    LinkAsWrittenIs(s, U[0], U[0], time, cb);
    TieSpliced(s, U, F, time, cb);
  }

  /** The explicit state of the tie case satisfies the invariants. */
  lemma TieSpliced(s: State, U: seq<int>, F: seq<int>, time: U32, cb: CallBack)
    requires ConsistentWith(s, U, F) && 0 < |U| < MaxCallBacks
    requires TicksOf(s.slots, U)[0] == time
    ensures |F| > 0 && 0 <= F[0] < MaxCallBacks && 0 <= U[0] < MaxCallBacks
    ensures var n := F[0];
      var lag := U[0];
      var slots2 := s.slots[n := Slot(time, s.slots[lag].next, true, cb)];
      var slots3 := slots2[lag := slots2[lag].(next := n)];
      ConsistentWith(State(slots3, Manager(s.mgr.usedHead, s.slots[n].next, IncU8(s.mgr.totalCallBacks)), s.now),
                     [U[0], F[0]] + U[1..], F[1..]) &&
      PayloadKept(s.slots, slots3, n) && slots3[n] == Slot(time, s.slots[lag].next, true, cb)
  {
    PartitionFacts(U, F);
    var A, B := [U[0]], U[1..];
    assert U == A + B;
    assert LinkAt(s.slots, U, 0);
    var T := TicksOf(s.slots, U);
    forall i | |A| <= i < |U| ensures time <= T[i] {
      assert T[0] <= T[i];
    }
    if |B| > 0 { assert B[0] == U[1]; }
    SplicedConsistent(s, U, F, A, B, time, cb, s.slots[U[0]].next);
    assert [U[0], F[0]] + B == A + [F[0]] + B;
  }

  /** The explicit state linking produces when the scan stopped at the head:
      the new slot lands right after the head and the lists still partition
      the pool. */
  lemma HeadSpliced(s: State, U: seq<int>, F: seq<int>, time: U32, cb: CallBack)
    requires ConsistentWith(s, U, F) && 0 < |U| < MaxCallBacks
    ensures |F| > 0 && 0 <= F[0] < MaxCallBacks && 0 <= U[0] < MaxCallBacks
    ensures var n := F[0];
      var lag := U[0];
      var slots2 := s.slots[n := Slot(time, s.slots[lag].next, true, cb)];
      var slots3 := slots2[lag := slots2[lag].(next := n)];
      var r := State(slots3, Manager(s.mgr.usedHead, s.slots[n].next, IncU8(s.mgr.totalCallBacks)), s.now);
      var L := [U[0], F[0]] + U[1..];
      UsedList(r) == Some(L) && FreeList(r) == Some(F[1..]) && Partition(L, F[1..]) &&
      PayloadKept(s.slots, slots3, n) && slots3[n].ticks == time
  {
    PartitionFacts(U, F);
    var A, B := [U[0]], U[1..];
    assert U == A + [] + B;
    assert LinkAt(s.slots, U, 0);
    if |B| > 0 { assert B[0] == U[1]; }
    LinkAfter(s, U, F, A, [], B, time, cb, s.slots[U[0]].next);
    var n := F[0];
    var slots2 := s.slots[n := Slot(time, s.slots[U[0]].next, true, cb)];
    var slots3 := slots2[U[0] := slots2[U[0]].(next := n)];
    var r := State(slots3, Manager(s.mgr.usedHead, s.slots[n].next, IncU8(s.mgr.totalCallBacks)), s.now);
    var L := [U[0], F[0]] + U[1..];
    assert L == A + [F[0]] + B;
    ChainsGiveLists(r, L, F[1..]);
    PartitionSplice(A, B, F);
  }

  /** As written, a tick strictly below the head's also lands right after the
      head (timer.c never updates `usedHead` in this branch): the lists still
      partition the pool but the used list is out of order. */
  lemma InsertBelowHeadMisorders(s: State, time: U32, cb: CallBack, U: seq<int>, F: seq<int>)
    requires ConsistentWith(s, U, F) && 0 < |U| < MaxCallBacks
    requires time < TicksOf(s.slots, U)[0]
    ensures InsertReady(s) && |F| > 0
    ensures var r := InsertAsWritten(s, time, cb);
      var L := [U[0], F[0]] + U[1..];
      UsedList(r) == Some(L) && FreeList(r) == Some(F[1..]) &&
      Partition(L, F[1..]) && r.mgr.totalCallBacks == |L| &&
      InPool(r.slots, L) && TicksOf(r.slots, L)[0] > TicksOf(r.slots, L)[1]
  {
    ScanStopIn(s, time, U, F);
    InsertNonEmptyBranch(s, time, cb);
    assert LinkAt(s.slots, U, 0);
    LinkAsWrittenIs(s, U[0], U[0], time, cb);
    HeadSpliced(s, U, F, time, cb);
    PartitionFacts(U, F);
    assert F[0] != U[0] by { assert U[0] in U; }
  }

  /** The explicit state linking produces when the scan stopped at entry `k`
      of the used list, neither the head nor past the end. */
  lemma DropSpliced(s: State, U: seq<int>, F: seq<int>, k: int, time: U32, cb: CallBack)
    requires ConsistentWith(s, U, F) && |U| < MaxCallBacks && 0 < k < |U|
    ensures |F| > 0 && 0 <= F[0] < MaxCallBacks && 0 <= U[k - 1] < MaxCallBacks && 0 <= U[k] < MaxCallBacks
    ensures var n := F[0];
      var slots2 := s.slots[n := Slot(time, s.slots[U[k]].next, true, cb)];
      var slots3 := slots2[U[k - 1] := slots2[U[k - 1]].(next := n)];
      var r := State(slots3, Manager(s.mgr.usedHead, s.slots[n].next, IncU8(s.mgr.totalCallBacks)), s.now);
      var L := U[..k] + [F[0]] + U[k + 1..];
      UsedList(r) == Some(L) && FreeList(r) == Some(F[1..]) &&
      U[k] !in L && U[k] !in F[1..] && |L| + |F[1..]| == MaxCallBacks - 1 &&
      PayloadKept(s.slots, slots3, n) && slots3[n].ticks == time && slots3[n].callBackFun == cb
  {
    PartitionFacts(U, F);
    var A, D, B := U[..k], [U[k]], U[k + 1..];
    assert U == A + D + B;
    assert LinkAt(s.slots, U, k) && LinkAt(s.slots, U, k - 1);
    if |B| > 0 { assert B[0] == U[k + 1]; }
    LinkAfter(s, U, F, A, D, B, time, cb, s.slots[U[k]].next);
    var n := F[0];
    var slots2 := s.slots[n := Slot(time, s.slots[U[k]].next, true, cb)];
    var slots3 := slots2[U[k - 1] := slots2[U[k - 1]].(next := n)];
    var r := State(slots3, Manager(s.mgr.usedHead, s.slots[n].next, IncU8(s.mgr.totalCallBacks)), s.now);
    var L := U[..k] + [F[0]] + U[k + 1..];
    assert A[|A| - 1] == U[k - 1];
    ChainsGiveLists(r, L, F[1..]);
    assert U[k] != F[0] by { assert U[k] in U; }
    assert U[k] !in A by {
      forall j | 0 <= j < |A| ensures A[j] != U[k] { assert A[j] == U[j]; }
    }
    assert U[k] !in B by {
      forall j | 0 <= j < |B| ensures B[j] != U[k] { assert B[j] == U[k + 1 + j]; }
    }
    assert U[k] !in F by { assert U[k] in U; }
  }

  /** As written, inserting in front of an entry that is not the head links the
      new slot to that entry's successor (timer.c:147): the entry is on neither
      list afterwards, the lists hold one slot fewer than the pool, and the
      count is one more than the used list's length. */
  lemma InsertBeforeLaterEntryDropsIt(s: State, time: U32, cb: CallBack, U: seq<int>, F: seq<int>)
    requires ConsistentWith(s, U, F) && |U| < MaxCallBacks
    requires 0 < CountBelow(TicksOf(s.slots, U), time) < |U|
    ensures InsertReady(s) && |F| > 0
    ensures var k := CountBelow(TicksOf(s.slots, U), time);
      var r := InsertAsWritten(s, time, cb);
      var L := U[..k] + [F[0]] + U[k + 1..];
      UsedList(r) == Some(L) && FreeList(r) == Some(F[1..]) &&
      U[k] !in L && U[k] !in F[1..] &&
      |L| + |F[1..]| == MaxCallBacks - 1 && r.mgr.totalCallBacks == |L| + 1 &&
      r.slots[F[0]].ticks == time && r.slots[F[0]].callBackFun == cb &&
      PayloadKept(s.slots, r.slots, F[0])
  {
    ScanStopIn(s, time, U, F);
    var k := CountBelow(TicksOf(s.slots, U), time);
    InsertNonEmptyBranch(s, time, cb);
    assert LinkAt(s.slots, U, k) && LinkAt(s.slots, U, k - 1);
    LinkAsWrittenIs(s, U[k - 1], U[k], time, cb);
    DropSpliced(s, U, F, k, time, cb);
  }

  // ---------------------------------------------------------------- intTimer0

  /** The loop test of `intTimer0`: the used head is a slot whose tick is the
      current one. The source reads the slot before comparing the head with the
      sentinel; here the sentinel test comes first, which gives the same
      answer whenever that read lands inside memory at all. */
  predicate HeadDue(s: State)
    requires |s.slots| == MaxCallBacks
  {
    0 <= s.mgr.usedHead < MaxCallBacks && s.slots[s.mgr.usedHead].ticks == s.now
  }

  /** One pass of the loop body of `intTimer0` as written: call the head's
      callback, clear its flag, decrement the count, pop it from the used
      list, push it on the free list, and then set the used head to the freed
      slot's `next`, which the push has just made the old free head. */
  function FireHeadAsWritten(s: State): (r: (State, CallBack))
    requires |s.slots| == MaxCallBacks && 0 <= s.mgr.usedHead < MaxCallBacks
    ensures |r.0.slots| == MaxCallBacks && r.0.now == s.now
    ensures r.1 == s.slots[s.mgr.usedHead].callBackFun
    ensures r.0.mgr.totalCallBacks == DecU8(s.mgr.totalCallBacks)
    ensures r.0.mgr.freeHead == s.mgr.usedHead && r.0.mgr.usedHead == s.mgr.freeHead
    ensures var h := s.mgr.usedHead;
      r.0.slots == s.slots[h := r.0.slots[h]] &&
      r.0.slots[h].ticks == s.slots[h].ticks && r.0.slots[h].callBackFun == s.slots[h].callBackFun &&
      !r.0.slots[h].used && r.0.slots[h].next == s.mgr.freeHead
  {
    var h := s.mgr.usedHead;
    var s1 := s.(slots := s.slots[h := s.slots[h].(used := false)],
                 mgr := s.mgr.(totalCallBacks := DecU8(s.mgr.totalCallBacks)));
    var (s2, freed) := PopHeadUsed(s1);
    var s3 := InsertHeadFree(s2, freed);
    (s3.(mgr := s3.mgr.(usedHead := s3.slots[freed].next)), s.slots[h].callBackFun)
  }

  /** What `intTimer0` needs so that every slot it reads is inside the pool
      and its loop stops: a used head inside the pool or the sentinel and, when
      the head is due, a free head that is the sentinel or a slot that is not
      due (otherwise the loop runs for ever, see TickCyclesAsWritten and
      SelfLoopCyclesAsWritten). A used head at the sentinel with a non-zero
      count passes, although the source then reads slot 0xFF in the loop
      test; HeadDue tests the sentinel first. */
  predicate TickReady(s: State)
  {
    |s.slots| == MaxCallBacks &&
    var now := AddU32(s.now, 1);
    (s.mgr.totalCallBacks != 0 ==> s.mgr.usedHead == NullSentinel || s.mgr.usedHead < MaxCallBacks) &&
    (s.mgr.totalCallBacks != 0 && HeadDue(s.(now := now)) ==>
       s.mgr.freeHead == NullSentinel ||
       (s.mgr.freeHead < MaxCallBacks && s.slots[s.mgr.freeHead].ticks != now))
  }

  /** `intTimer0` as written: advance the tick counter (wrapping at 2^32); if
      the count is not zero, fire the used head while it is due. Under
      TickReady the loop body runs at most once. Returns the new state and the
      callbacks called, in order. */
  function TickAsWritten(s: State): (r: (State, seq<CallBack>))
    requires TickReady(s)
    ensures r.0.now == AddU32(s.now, 1) && |r.1| <= 1
    ensures s.mgr.totalCallBacks == 0 ==> r == (s.(now := AddU32(s.now, 1)), [])
  {
    var s1 := s.(now := AddU32(s.now, 1));
    if s1.mgr.totalCallBacks == 0 || !HeadDue(s1) then (s1, [])
    else
      var (s2, cb) := FireHeadAsWritten(s1);
      (s2, [cb])
  }

  /** A tick at which the used head is not due only advances the counter:
      the lists and the invariants are untouched and nothing is called. */
  lemma TickNothingDueKeepsInvariant(s: State, U: seq<int>, F: seq<int>)
    requires ConsistentWith(s, U, F)
    requires |U| > 0 ==> TicksOf(s.slots, U)[0] != AddU32(s.now, 1)
    ensures TickReady(s)
    ensures TickAsWritten(s).1 == []
    ensures ConsistentWith(TickAsWritten(s).0, U, F) && TickAsWritten(s).0.slots == s.slots
  {
    PartitionFacts(U, F);
    if |U| > 0 {
      assert LinkAt(s.slots, U, 0);
    }
  }

  /** One pass of the loop body written out as one state update. */
  lemma FireHeadIs(s: State)
    requires |s.slots| == MaxCallBacks && 0 <= s.mgr.usedHead < MaxCallBacks
    ensures var h := s.mgr.usedHead;
      FireHeadAsWritten(s).0 ==
        State(s.slots[h := s.slots[h].(used := false, next := s.mgr.freeHead)],
              Manager(s.mgr.freeHead, h, DecU8(s.mgr.totalCallBacks)), s.now)
  {
  }

  /** The explicit state after one pass on a consistent state: the fired slot
      heads the free list in front of the old free list, and the used list is
      now the old free list. */
  lemma FiredHeadLists(s: State, U: seq<int>, F: seq<int>)
    requires ConsistentWith(s, U, F) && |U| > 0
    ensures 0 <= U[0] < MaxCallBacks
    ensures var h := U[0];
      var r := State(s.slots[h := s.slots[h].(used := false, next := s.mgr.freeHead)],
                     Manager(s.mgr.freeHead, h, DecU8(s.mgr.totalCallBacks)), s.now);
      UsedList(r) == Some(F) && FreeList(r) == Some([h] + F)
  {
    PartitionFacts(U, F);
    ChainTail(s.slots, s.mgr.usedHead, U);
    var h := U[0];
    var slots' := s.slots[h := s.slots[h].(used := false, next := s.mgr.freeHead)];
    var r := State(slots', Manager(s.mgr.freeHead, h, DecU8(s.mgr.totalCallBacks)), s.now);
    assert h in U;
    forall i | 0 <= i < |F| ensures NextKept(s.slots, slots', F[i]) {
      assert F[i] in F;
    }
    ChainFrame(s.slots, slots', s.mgr.freeHead, F);
    ChainPush(s.slots, slots', s.mgr.freeHead, F, h);
    ChainsGiveLists(r, F, [h] + F);
  }

  /** A list and itself with one more slot in front never partition the pool:
      together they would have an odd length, and the pool's is even. */
  lemma DoubledNotPartition(F: seq<int>, h: int)
    ensures !Partition(F, [h] + F)
  {
    if Partition(F, [h] + F) {
      PartitionFacts(F, [h] + F);
    }
  }

  /** The slots of a partition's used list after its head are neither the
      head nor on the free list. */
  lemma TailOffBoth(U: seq<int>, F: seq<int>)
    requires Partition(U, F) && |U| > 0
    ensures forall i :: 1 <= i < |U| ==> U[i] !in F && U[i] != U[0]
  {
    PartitionFacts(U, F);
    forall i | 1 <= i < |U| ensures U[i] !in F && U[i] != U[0] {
      assert U[i] in U;
    }
  }

  /** As written, firing the due head of a consistent state makes the used
      list a copy of the old free list (timer.c:181 reads the `next` that the
      push of timer.c:180 has just overwritten): the one callback is called,
      the fired slot heads the free list, the count drops by one, and every
      other scheduled callback is lost from both lists. */
  lemma TickFiresHeadAsWritten(s: State, U: seq<int>, F: seq<int>)
    requires ConsistentWith(s, U, F) && |U| > 0
    requires TicksOf(s.slots, U)[0] == AddU32(s.now, 1)
    requires |F| == 0 || s.slots[F[0]].ticks != AddU32(s.now, 1)
    ensures TickReady(s)
    ensures var (r, fired) := TickAsWritten(s);
      fired == [s.slots[U[0]].callBackFun] && r.mgr.totalCallBacks == |U| - 1 &&
      UsedList(r) == Some(F) && FreeList(r) == Some([U[0]] + F) &&
      !Partition(F, [U[0]] + F) && !r.slots[U[0]].used &&
      forall i :: 1 <= i < |U| ==> U[i] !in F && U[i] != U[0]
  {
    PartitionFacts(U, F);
    assert LinkAt(s.slots, U, 0);
    if |F| > 0 { assert LinkAt(s.slots, F, 0); }
    var s1 := s.(now := AddU32(s.now, 1));
    assert HeadDue(s1);
    FireHeadIs(s1);
    FiredHeadLists(s1, U, F);
    DoubledNotPartition(F, U[0]);
    TailOffBoth(U, F);
  }

  /** As written, when every slot is in use and the head falls due, the tick
      leaves an empty used list behind a count of 63: the freed head's `next`
      is the sentinel, which line 181 makes the used head. The state then
      fails InsertReady, and the next `requestAlarm` would read the slot at
      index 0xFF (timer.c:120). It passes TickReady, whose loop test (HeadDue)
      checks for the sentinel first, while the next `intTimer0` reads that
      slot too (timer.c:173). */
  lemma FullPoolFireLeavesInsertUnready(s: State, U: seq<int>)
    requires ConsistentWith(s, U, []) && |U| > 0
    requires TicksOf(s.slots, U)[0] == AddU32(s.now, 1)
    ensures |U| == MaxCallBacks && TickReady(s)
    ensures var (r, fired) := TickAsWritten(s);
      fired == [s.slots[U[0]].callBackFun] && r.mgr.totalCallBacks == MaxCallBacks - 1 &&
      r.mgr.usedHead == NullSentinel && UsedList(r) == Some([]) &&
      FreeList(r) == Some([U[0]]) && !InsertReady(r) && TickReady(r)
  {
    PartitionFacts(U, []);
    TickFiresHeadAsWritten(s, U, []);
    assert [U[0]] + [] == [U[0]];
  }

  /** As written, when the free head is due at the same tick as the used
      head, the loop of `intTimer0` never stops: after the first pass the two
      slots take turns as the used head, each pass finds the head due and not
      the sentinel, and every second pass restores the state up to the count,
      which the loop test does not read. The two callbacks are called
      alternately for ever. TickReady excludes this case. */
  lemma TickCyclesAsWritten(s: State)
    requires |s.slots| == MaxCallBacks && HeadDue(s)
    requires 0 <= s.mgr.freeHead < MaxCallBacks && s.mgr.freeHead != s.mgr.usedHead
    requires s.slots[s.mgr.freeHead].ticks == s.now
    ensures var a := FireHeadAsWritten(s).0;
      HeadDue(a) &&
      var b := FireHeadAsWritten(a).0;
      HeadDue(b) &&
      var c := FireHeadAsWritten(b).0;
      HeadDue(c) &&
      FireHeadAsWritten(c).0 == b.(mgr := b.mgr.(totalCallBacks := DecU8(DecU8(b.mgr.totalCallBacks)))) &&
      FireHeadAsWritten(a).1 == s.slots[s.mgr.freeHead].callBackFun &&
      FireHeadAsWritten(b).1 == s.slots[s.mgr.usedHead].callBackFun &&
      FireHeadAsWritten(c).1 == FireHeadAsWritten(a).1
  {
    var a := FireHeadAsWritten(s).0;
    FireHeadIs(s);
    var b := FireHeadAsWritten(a).0;
    FireHeadIs(a);
    var c := FireHeadAsWritten(b).0;
    FireHeadIs(b);
    FireHeadIs(c);
  }

  /** As written, when the due used head is also the free head, the pass
      pushes the slot onto the free list by linking it to itself, and
      line 181 makes it the used head again. The head stays due, and every
      further pass only decrements the count: the same callback is called
      for ever. TickReady excludes this case too. */
  lemma SelfLoopCyclesAsWritten(s: State)
    requires |s.slots| == MaxCallBacks && HeadDue(s) && s.mgr.freeHead == s.mgr.usedHead
    ensures var h := s.mgr.usedHead; var (a, cb) := FireHeadAsWritten(s);
      cb == s.slots[h].callBackFun && a.mgr.usedHead == h && a.mgr.freeHead == h &&
      a.slots[h].next == h && HeadDue(a) &&
      FireHeadAsWritten(a) == (a.(mgr := a.mgr.(totalCallBacks := DecU8(a.mgr.totalCallBacks))), cb)
  {
    var h := s.mgr.usedHead;
    var a := FireHeadAsWritten(s).0;
    FireHeadIs(s);
    FireHeadIs(a);
    assert a.slots[h := a.slots[h].(used := false, next := a.mgr.freeHead)] == a.slots;
  }

  /** The self-linked shape is reachable as written: after a tick fires the
      head of a list of two or more entries, the used head is the old free
      head F[0] and the fired slot is the free head linked to F[0]; the next
      accepted request pops the fired slot and leaves both heads at F[0]. */
  lemma FireThenInsertAliasesHeadsAsWritten(s: State, U: seq<int>, F: seq<int>, time: U32, cb: CallBack)
    requires ConsistentWith(s, U, F) && |U| > 1 && |F| > 0
    requires TicksOf(s.slots, U)[0] == AddU32(s.now, 1) && s.slots[F[0]].ticks != AddU32(s.now, 1)
    ensures TickReady(s)
    ensures var t := TickAsWritten(s).0;
      InsertReady(t) && t.mgr.totalCallBacks != 0 &&
      var r := InsertAsWritten(t, time, cb);
      r.mgr.usedHead == F[0] && r.mgr.freeHead == F[0]
  {
    PartitionFacts(U, F);
    TickFiresHeadAsWritten(s, U, F);
    var t := TickAsWritten(s).0;
    var s1 := s.(now := AddU32(s.now, 1));
    FireHeadIs(s1);
    assert t.mgr.usedHead == F[0] && t.mgr.freeHead == U[0];
    assert t.slots[U[0]].next == F[0];
  }

  // ------------------------------------------------------------- requestAlarm

  /** `requestAlarm` as written: refuse a NULL callback, a delay above
      UINT32_MAX (no 32-bit delay is, so this test never refuses) and a full
      count; otherwise insert at the wrapped sum of the current tick and the
      delay, and accept. */
  function RequestAlarmAsWritten(s: State, delay: U32, cb: CallBack): (r: (State, bool))
    requires cb != NullCallBack && s.mgr.totalCallBacks < MaxCallBacks ==> InsertReady(s)
    ensures !r.1 <==> cb == NullCallBack || s.mgr.totalCallBacks >= MaxCallBacks
    ensures !r.1 ==> r.0 == s
    ensures r.1 ==> r.0.mgr.totalCallBacks == s.mgr.totalCallBacks + 1 && r.0.now == s.now
    ensures r.1 ==> InsertReady(s) && |r.0.slots| == MaxCallBacks &&
                    r.0.slots[s.mgr.freeHead].ticks == AddU32(s.now, delay) &&
                    r.0.slots[s.mgr.freeHead].callBackFun == cb
  {
    if cb == NullCallBack then (s, false)
    else if delay > Uint32Max then (s, false)
    else if s.mgr.totalCallBacks >= MaxCallBacks then (s, false)
    else (InsertAsWritten(s, AddU32(s.now, delay), cb), true)
  }

  /** On a freshly initialised (or emptied) scheduler a request is accepted
      and leaves a one-element used list whose tick is the current tick plus
      the delay, modulo 2^32, with the requested callback. */
  lemma RequestOnEmptyAccepted(s: State, delay: U32, cb: CallBack, F: seq<int>)
    requires ConsistentWith(s, [], F) && cb != NullCallBack
    ensures InsertReady(s) && |F| == MaxCallBacks
    ensures var (r, ok) := RequestAlarmAsWritten(s, delay, cb);
      ok && ConsistentWith(r, [F[0]], F[1..]) &&
      r.slots[F[0]].ticks == AddU32(s.now, delay) && r.slots[F[0]].callBackFun == cb
  {
    InsertIntoEmptyList(s, AddU32(s.now, delay), cb, [], F);
  }

  /** As written, the empty-list branch never sets the popped slot's `used`
      flag: on a scheduler whose flags matched its (empty) used list, the
      slot now scheduled is still marked unused. */
  lemma InsertIntoEmptyLeavesFlagClear(s: State, time: U32, cb: CallBack, F: seq<int>)
    requires ConsistentWith(s, [], F) && FlagsMatch(s.slots, [])
    ensures InsertReady(s) && |F| == MaxCallBacks
    ensures var r := InsertAsWritten(s, time, cb);
      UsedList(r) == Some([F[0]]) && !r.slots[F[0]].used && !FlagsMatch(r.slots, [F[0]])
  {
    InsertIntoEmptyList(s, time, cb, [], F);
    ConsistentLists(InsertAsWritten(s, time, cb), [F[0]], F[1..]);
    assert F[0] in [F[0]];
  }

  /** As written, an alarm fires only at the tick equal to its own. A request
      with delay 0 asks for the tick the counter already shows: the next tick
      does not call it, and it stays at the used head with a tick behind the
      counter, which returns to it only after wrapping round 2^32 ticks. */
  lemma StaleRequestMissedAsWritten(s: State, cb: CallBack, F: seq<int>)
    requires ConsistentWith(s, [], F) && cb != NullCallBack
    ensures InsertReady(s) && |F| == MaxCallBacks
    ensures var r := RequestAlarmAsWritten(s, 0, cb).0;
      TickReady(r) &&
      var (t, fired) := TickAsWritten(r);
      fired == [] && t.now == AddU32(s.now, 1) &&
      ConsistentWith(t, [F[0]], F[1..]) && t.mgr.usedHead == F[0] &&
      t.slots[F[0]].ticks == s.now && t.slots[F[0]].ticks != t.now
  {
    RequestOnEmptyAccepted(s, 0, cb, F);
    var r := RequestAlarmAsWritten(s, 0, cb).0;
    assert TicksOf(r.slots, [F[0]])[0] == s.now;
    TickNothingDueKeepsInvariant(r, [F[0]], F[1..]);
  }

  /** As written, a used head whose tick the counter has passed also holds
      back every entry behind it: the next entry is due at the new tick, yet
      nothing is called and the lists stay as they are. */
  lemma StaleHeadBlocksAsWritten(s: State, U: seq<int>, F: seq<int>)
    requires ConsistentWith(s, U, F) && |U| > 1
    requires TicksOf(s.slots, U)[0] != AddU32(s.now, 1) && TicksOf(s.slots, U)[1] == AddU32(s.now, 1)
    ensures TickReady(s)
    ensures var (t, fired) := TickAsWritten(s);
      fired == [] && ConsistentWith(t, U, F) && t.slots[U[1]].ticks == t.now
  {
    TickNothingDueKeepsInvariant(s, U, F);
  }
}

=== FILE: alarm_timer.dfy ===
/** The scheduler of timer.c as an object: the pool is an array updated in
    place, the manager record and the tick counter are fields, and every
    function of timer.c is a method with the source's own loops. Each method
    is proved to leave the state that the matching function of AlarmSpec
    computes from the state before it. */
module AlarmTimer {
  import opened TimerH
  import opened StaticLists
  import opened AlarmSpec

  class Scheduler {
    /** `callBackArr`: the pool of MAX_CALL_BACKS slots. */
    const callBackArr: array<Slot>
    /** `callBackManager`: list heads and count. */
    var callBackManager: Manager
    /** `timerNow`: ticks since start, wrapping at 2^32. */
    var timerNow: U32
    /** The callbacks called so far, oldest first. */
    ghost var fired: seq<CallBack>

    /** The scheduler's globals as one value. */
    ghost function Snapshot(): (s: State)
      reads this, callBackArr
      ensures |s.slots| == callBackArr.Length
    {
      State(callBackArr[..], callBackManager, timerNow)
    }

    /** The globals before any call: C zero-initialises statics, so every slot
        and every manager field is 0 and no list is formed yet. */
    constructor ()
      ensures callBackArr.Length == MaxCallBacks && fresh(callBackArr)
      ensures forall i :: 0 <= i < MaxCallBacks ==> callBackArr[i] == Slot(0, 0, false, NullCallBack)
      ensures callBackManager == Manager(0, 0, 0) && timerNow == 0 && fired == []
    {
      callBackArr := new Slot[MaxCallBacks](_ => Slot(0, 0, false, NullCallBack));
      callBackManager := Manager(0, 0, 0);
      timerNow := 0;
      fired := [];
    }

    /** `initAlarm`: thread every slot onto the free list and empty the used list. */
    method InitAlarm()
      requires callBackArr.Length == MaxCallBacks
      modifies this, callBackArr
      ensures Snapshot() == AlarmSpec.InitAlarm(old(Snapshot())) && fired == old(fired)
    {
      var iterIndex := 0;
      while iterIndex < MaxCallBacks
        invariant 0 <= iterIndex <= MaxCallBacks
        invariant callBackManager == old(callBackManager) && timerNow == old(timerNow) && fired == old(fired)
        invariant forall i :: 0 <= i < iterIndex ==>
          callBackArr[i] == old(callBackArr[i]).(next := i + 1, used := false)
        invariant forall i :: iterIndex <= i < MaxCallBacks ==> callBackArr[i] == old(callBackArr[i])
      {
        callBackArr[iterIndex] := callBackArr[iterIndex].(next := iterIndex + 1, used := false);
        iterIndex := iterIndex + 1;
      }
      callBackArr[MaxCallBacks - 1] := callBackArr[MaxCallBacks - 1].(next := NullSentinel);
      callBackManager := callBackManager.(freeHead := 0, usedHead := NullSentinel, totalCallBacks := 0);
      assert callBackArr[..] == InitSlots(old(callBackArr[..]));
    }

    /** `popHeadStaticFreeLinkedList`. */
    method PopHeadStaticFreeLinkedList() returns (retVal: U8)
      requires callBackArr.Length == MaxCallBacks && callBackManager.freeHead < MaxCallBacks
      modifies this
      ensures (Snapshot(), retVal) == PopHeadFree(old(Snapshot())) && fired == old(fired)
    {
      retVal := callBackManager.freeHead;
      callBackManager := callBackManager.(freeHead := callBackArr[callBackManager.freeHead].next);
    }

    /** `insertHeadStaticFreeLinkedList`. */
    method InsertHeadStaticFreeLinkedList(index: U8)
      requires callBackArr.Length == MaxCallBacks && index < MaxCallBacks
      modifies this, callBackArr
      ensures Snapshot() == InsertHeadFree(old(Snapshot()), index) && fired == old(fired)
    {
      var oldHead := callBackManager.freeHead;
      callBackManager := callBackManager.(freeHead := index);
      callBackArr[index] := callBackArr[index].(next := oldHead);
    }

    /** `popHeadStaticUsedLinkedList`. */
    method PopHeadStaticUsedLinkedList() returns (retVal: U8)
      requires callBackArr.Length == MaxCallBacks && callBackManager.usedHead < MaxCallBacks
      modifies this
      ensures (Snapshot(), retVal) == PopHeadUsed(old(Snapshot())) && fired == old(fired)
    {
      retVal := callBackManager.usedHead;
      callBackManager := callBackManager.(usedHead := callBackArr[callBackManager.usedHead].next);
    }
  
    /** The lag/lead scan of `insertStaticLinkedList` over a non-empty used
        list: the lead stops at the first slot whose tick is not below `time`
        or at the sentinel, the lag one slot behind it (at the head while the
        lead is the head). */
    method ScanUsedList(time: U32, ghost U: seq<int>) returns (iterIndexLag: int, iterIndexLead: int)
      requires callBackArr.Length == MaxCallBacks
      requires |U| > 0 && IsChain(callBackArr[..], callBackManager.usedHead, U)
      ensures var k := CountBelow(TicksOf(callBackArr[..], U), time);
        iterIndexLag == (if k == 0 then U[0] else U[k - 1]) &&
        iterIndexLead == (if k < |U| then U[k] else NullSentinel)
    {
      ghost var slots := callBackArr[..];
      ghost var T := TicksOf(slots, U);
      iterIndexLag := callBackManager.usedHead;
      iterIndexLead := callBackManager.usedHead;
      ghost var i := 0;
      while iterIndexLead != NullSentinel && callBackArr[iterIndexLead].ticks < time
        invariant 0 <= i <= |U|
        invariant iterIndexLead == NullSentinel <==> i == |U|
        invariant i < |U| ==> iterIndexLead == U[i] && 0 <= iterIndexLead < MaxCallBacks
        invariant iterIndexLag == if i == 0 then U[0] else U[i - 1]
        invariant i <= CountBelow(T, time)
        decreases |U| - i
      {
        assert LinkAt(slots, U, i);
        assert T[i] == slots[iterIndexLead].ticks < time;
        iterIndexLag := iterIndexLead;
        iterIndexLead := callBackArr[iterIndexLead].next;
        i := i + 1;
      }
      if iterIndexLead != NullSentinel {
        assert T[i] == slots[iterIndexLead].ticks >= time;
      }
    }

    /** `insertStaticLinkedList`, as written. */
    method InsertStaticLinkedList(time: U32, callBackFun: CallBack)
      requires callBackArr.Length == MaxCallBacks && InsertReady(Snapshot())
      modifies this, callBackArr
      ensures Snapshot() == InsertAsWritten(old(Snapshot()), time, callBackFun) && fired == old(fired)
    {
      if callBackManager.totalCallBacks == 0 {
        var index := PopHeadStaticFreeLinkedList();
        callBackArr[index] := callBackArr[index].(next := NullSentinel, callBackFun := callBackFun, ticks := time);
        callBackManager := callBackManager.(usedHead := index);
      } else {
        ghost var s0 := Snapshot();
        ghost var U := ScanStopOnList(s0, time);
        var iterIndexLag, iterIndexLead := ScanUsedList(time, U);
        assert callBackArr[..] == s0.slots;
        assert (iterIndexLag, iterIndexLead) == ScanStop(s0, time);
        InsertNonEmptyBranch(s0, time, callBackFun);
        LinkAfterScan(iterIndexLag, iterIndexLead, time, callBackFun);
      }
      callBackManager := callBackManager.(totalCallBacks := IncU8(callBackManager.totalCallBacks));
    }

    /** The rest of the non-empty branch once the scan has stopped: pop a free
        slot, point it at the lead's successor, fill it in and link the lag to
        it. The count is updated by the caller. */
    method LinkAfterScan(iterIndexLag: int, iterIndexLead: int, time: U32, callBackFun: CallBack)
      requires callBackArr.Length == MaxCallBacks && 0 <= callBackManager.freeHead < MaxCallBacks
      requires 0 <= iterIndexLag < MaxCallBacks
      requires iterIndexLead == NullSentinel || 0 <= iterIndexLead < MaxCallBacks
      modifies this, callBackArr
      ensures var r := LinkAsWritten(old(Snapshot()), iterIndexLag, iterIndexLead, time, callBackFun);
        Snapshot() == r.(mgr := r.mgr.(totalCallBacks := old(callBackManager.totalCallBacks))) &&
        fired == old(fired)
    {
      LinkAsWrittenIs(Snapshot(), iterIndexLag, iterIndexLead, time, callBackFun);
      var insertIndex := PopHeadStaticFreeLinkedList();
      if iterIndexLead == NullSentinel {
        callBackArr[insertIndex] := callBackArr[insertIndex].(next := NullSentinel);
      } else {
        callBackArr[insertIndex] := callBackArr[insertIndex].(next := callBackArr[iterIndexLead].next);
      }
      callBackArr[insertIndex] := callBackArr[insertIndex].(callBackFun := callBackFun, ticks := time, used := true);
      callBackArr[iterIndexLag] := callBackArr[iterIndexLag].(next := insertIndex);
    }
  
    /** `intTimer0`, as written; calling a callback appends it to `fired`. */
    method IntTimer0()
      requires callBackArr.Length == MaxCallBacks && TickReady(Snapshot())
      modifies this, callBackArr
      ensures Snapshot() == TickAsWritten(old(Snapshot())).0
      ensures fired == old(fired) + TickAsWritten(old(Snapshot())).1
    {
      ghost var s0 := Snapshot();
      timerNow := AddU32(timerNow, 1);
      if callBackManager.totalCallBacks == 0 {
        return;
      }
      ghost var s1 := Snapshot();
      assert s1 == s0.(now := AddU32(s0.now, 1));
      ghost var passes := 0;
      while callBackManager.usedHead != NullSentinel &&
            timerNow == callBackArr[callBackManager.usedHead].ticks
        invariant callBackManager.usedHead == NullSentinel || callBackManager.usedHead < MaxCallBacks
        invariant 0 <= passes <= 1
        invariant passes == 0 ==> Snapshot() == s1 && fired == old(fired)
        invariant passes == 1 ==>
          HeadDue(s1) && Snapshot() == FireHeadAsWritten(s1).0 &&
          fired == old(fired) + [FireHeadAsWritten(s1).1]
        invariant passes == 1 ==>
          callBackManager.usedHead == NullSentinel || callBackArr[callBackManager.usedHead].ticks != timerNow
        decreases 1 - passes
      {
        fired := fired + [callBackArr[callBackManager.usedHead].callBackFun];
        callBackArr[callBackManager.usedHead] := callBackArr[callBackManager.usedHead].(used := false);
        callBackManager := callBackManager.(totalCallBacks := DecU8(callBackManager.totalCallBacks));
        var freedIndex := PopHeadStaticUsedLinkedList();
        InsertHeadStaticFreeLinkedList(freedIndex);
        callBackManager := callBackManager.(usedHead := callBackArr[freedIndex].next);
        passes := passes + 1;
        FireHeadIs(s1);
        assert Snapshot() == FireHeadAsWritten(s1).0;
        if callBackManager.usedHead == NullSentinel {
          break;
        }
      }
    }

    /** `requestAlarm`, as written. */
    method RequestAlarm(delay: U32, callBackFun: CallBack) returns (ok: bool)
      requires callBackArr.Length == MaxCallBacks
      requires callBackFun != NullCallBack && callBackManager.totalCallBacks < MaxCallBacks ==> InsertReady(Snapshot())
      modifies this, callBackArr
      ensures (Snapshot(), ok) == RequestAlarmAsWritten(old(Snapshot()), delay, callBackFun)
      ensures fired == old(fired)
    {
      if callBackFun == NullCallBack {
        return false;
      }
      if delay > Uint32Max {
        return false;
      }
      if callBackManager.totalCallBacks >= MaxCallBacks {
        return false;
      }
      var alarmTime := AddU32(timerNow, delay);
      InsertStaticLinkedList(alarmTime, callBackFun);
      return true;
    }
  }
}

=== FILE: corrected.dfy ===
/** The operations of timer.c with the defects the proofs in AlarmSpec expose
    repaired, and the design invariants of timer.h proved for them: the
    used list stays sorted, the two lists keep partitioning the pool, the
    count stays equal to the used list's length, and a slot's `used` flag
    says whether it is on the used list. */
module AlarmCorrected {
  import opened TimerH
  import opened StaticLists
  import opened AlarmSpec

  /** The design invariants together with the flags. */
  predicate Valid(s: State)
  {
    Consistent(s) && FlagsMatch(s.slots, UsedList(s).value)
  }

  // ---------------------------------------------------------------- insertion

  /** `insertStaticLinkedList` repaired: the new slot is marked used in both
      branches, it links to the lead itself (not the lead's successor), and
      when the scan stopped at the head the new slot becomes the head. */
  function InsertCorrected(s: State, time: U32, cb: CallBack): (r: State)
    requires InsertReady(s)
    ensures r.now == s.now && r.mgr.totalCallBacks == IncU8(s.mgr.totalCallBacks)
    ensures r.mgr.freeHead == s.slots[s.mgr.freeHead].next
  {
    var (s1, n) := PopHeadFree(s);
    var total := IncU8(s.mgr.totalCallBacks);
    if s.mgr.totalCallBacks == 0 then
      s1.(slots := s1.slots[n := Slot(time, NullSentinel, true, cb)],
          mgr := s1.mgr.(usedHead := n, totalCallBacks := total))
    else
      var (lag, lead) := ScanStop(s, time);
      var slots2 := s1.slots[n := Slot(time, lead, true, cb)];
      if lead == s.mgr.usedHead then
        s1.(slots := slots2, mgr := s1.mgr.(usedHead := n, totalCallBacks := total))
      else
        s1.(slots := slots2[lag := slots2[lag].(next := n)], mgr := s1.mgr.(totalCallBacks := total))
  }

  /** The repaired insert written out for the case where the scan stops at
      the head (including an empty used list): the new slot is pushed in
      front of the used list. */
  lemma InsertCorrectedAtHeadIs(s: State, time: U32, cb: CallBack, U: seq<int>, F: seq<int>)
    requires ConsistentWith(s, U, F) && |U| < MaxCallBacks
    requires CountBelow(TicksOf(s.slots, U), time) == 0
    ensures InsertReady(s)
    ensures var n := s.mgr.freeHead;
      var head := if |U| == 0 then NullSentinel else U[0];
      InsertCorrected(s, time, cb) ==
        State(s.slots[n := Slot(time, head, true, cb)],
              Manager(n, s.slots[n].next, IncU8(s.mgr.totalCallBacks)), s.now)
  {
    PartitionFacts(U, F);
    assert LinkAt(s.slots, F, 0);
    if |U| > 0 {
      ScanStopIn(s, time, U, F);
    }
  }

  /** The repaired insert written out for the case where the scan stops after
      entry `k - 1` of the used list: the new slot is linked between that
      entry and the lead. */
  lemma InsertCorrectedAfterIs(s: State, time: U32, cb: CallBack, U: seq<int>, F: seq<int>)
    requires ConsistentWith(s, U, F) && |U| < MaxCallBacks
    requires CountBelow(TicksOf(s.slots, U), time) > 0
    ensures InsertReady(s)
    ensures var k := CountBelow(TicksOf(s.slots, U), time);
      var n := s.mgr.freeHead;
      var lead := if k < |U| then U[k] else NullSentinel;
      0 <= U[k - 1] < MaxCallBacks && 0 <= lead < Uint8Modulus &&
      var slots2 := s.slots[n := Slot(time, lead, true, cb)];
      InsertCorrected(s, time, cb) ==
        State(slots2[U[k - 1] := slots2[U[k - 1]].(next := n)],
              Manager(s.mgr.usedHead, s.slots[n].next, IncU8(s.mgr.totalCallBacks)), s.now)
  {
    ScanStopIn(s, time, U, F);
    PartitionFacts(U, F);
    var k := CountBelow(TicksOf(s.slots, U), time);
    assert LinkAt(s.slots, U, k - 1);
    if k < |U| {
      assert LinkAt(s.slots, U, k);
      assert U[k] != U[0] by { assert Distinct(U); }
    }
  }

  /** Filling in free slot `n` and pushing it in front of the used list: the
      used list gains `n` in front, the free list loses it, and only `n`
      changes its payload. */
  lemma PushedChains(s: State, U: seq<int>, F: seq<int>, time: U32, cb: CallBack)
    requires ConsistentWith(s, U, F) && |U| < MaxCallBacks
    ensures |F| > 0 && 0 <= F[0] < MaxCallBacks
    ensures var n := F[0];
      var head := if |U| == 0 then NullSentinel else U[0];
      var slots' := s.slots[n := Slot(time, head, true, cb)];
      IsChain(slots', n, [n] + U) && IsChain(slots', s.slots[n].next, F[1..]) &&
      PayloadKept(s.slots, slots', n)
  {
    PartitionFacts(U, F);
    ChainTail(s.slots, s.mgr.freeHead, F);
    var n := F[0];
    var head := if |U| == 0 then NullSentinel else U[0];
    var slots' := s.slots[n := Slot(time, head, true, cb)];
    assert n !in U;
    forall i | 0 <= i < |U| ensures NextKept(s.slots, slots', U[i]) {
      assert U[i] in U;
    }
    if |U| > 0 { assert LinkAt(s.slots, U, 0); }
    ChainPush(s.slots, slots', s.mgr.usedHead, U, n);
    assert n !in F[1..] by {
      forall j | 0 <= j < |F[1..]| ensures F[1..][j] != n { assert F[1..][j] == F[j + 1]; }
    }
    forall i | 0 <= i < |F[1..]| ensures NextKept(s.slots, slots', F[1..][i]) {
      assert F[1..][i] in F[1..];
    }
    ChainFrame(s.slots, slots', s.slots[n].next, F[1..]);
  }

  /** Pushing free slot `n` with tick `time` at most every scheduled tick in
      front of the used list keeps the invariants. */
  lemma PushedConsistent(s: State, U: seq<int>, F: seq<int>, time: U32, cb: CallBack)
    requires ConsistentWith(s, U, F) && |U| < MaxCallBacks
    requires forall i :: 0 <= i < |U| ==> time <= TicksOf(s.slots, U)[i]
    ensures |F| > 0 && 0 <= F[0] < MaxCallBacks
    ensures var n := F[0];
      var head := if |U| == 0 then NullSentinel else U[0];
      var slots' := s.slots[n := Slot(time, head, true, cb)];
      ConsistentWith(State(slots', Manager(n, s.slots[n].next, IncU8(s.mgr.totalCallBacks)), s.now),
                     [n] + U, F[1..]) &&
      PayloadKept(s.slots, slots', n)
  {
    PushedChains(s, U, F, time, cb);
    PartitionFacts(U, F);
    var n := F[0];
    var head := if |U| == 0 then NullSentinel else U[0];
    var slots' := s.slots[n := Slot(time, head, true, cb)];
    assert n !in U;
    assert [] + [n] + U == [n] + U;
    SortedInsert(s.slots, slots', U, [], U, n, time);
    assert [] + U == U;
    PartitionSplice([], U, F);
  }

  /** Marking the one new slot used keeps the flags in step with a used list
      that gained exactly that slot. */
  lemma FlagsAfterInsert(slots: seq<Slot>, slots': seq<Slot>, U: seq<int>, L: seq<int>, n: int)
    requires |slots| == MaxCallBacks && FlagsMatch(slots, U)
    requires PayloadKept(slots, slots', n) && 0 <= n < MaxCallBacks && slots'[n].used
    requires forall x :: x in L <==> x in U || x == n
    ensures FlagsMatch(slots', L)
  {
  }

  /** The repaired insert puts the new slot right before the first scheduled
      tick that is not below its own, so the used list stays sorted, the lists
      keep partitioning the pool and the count stays the used list's length;
      the new slot carries the tick and the callback, is marked used, and no
      other slot's payload changes. */
  lemma InsertCorrectedKeepsInvariant(s: State, time: U32, cb: CallBack, U: seq<int>, F: seq<int>)
    requires ConsistentWith(s, U, F) && |U| < MaxCallBacks
    ensures InsertReady(s) && |F| > 0
    ensures var k := CountBelow(TicksOf(s.slots, U), time);
      var r := InsertCorrected(s, time, cb);
      ConsistentWith(r, U[..k] + [F[0]] + U[k..], F[1..]) &&
      r.slots[F[0]] == Slot(time, r.slots[F[0]].next, true, cb) &&
      PayloadKept(s.slots, r.slots, F[0])
  {
    if CountBelow(TicksOf(s.slots, U), time) == 0 {
      InsertCorrectedAtHeadKeeps(s, time, cb, U, F);
    } else {
      InsertCorrectedAfterKeeps(s, time, cb, U, F);
    }
  }

  /** The head case: nothing scheduled is earlier than the new tick. */
  lemma InsertCorrectedAtHeadKeeps(s: State, time: U32, cb: CallBack, U: seq<int>, F: seq<int>)
    requires ConsistentWith(s, U, F) && |U| < MaxCallBacks
    requires CountBelow(TicksOf(s.slots, U), time) == 0
    ensures InsertReady(s) && |F| > 0
    ensures var r := InsertCorrected(s, time, cb);
      ConsistentWith(r, [F[0]] + U, F[1..]) &&
      r.slots[F[0]] == Slot(time, r.slots[F[0]].next, true, cb) &&
      PayloadKept(s.slots, r.slots, F[0])
    ensures U[..0] + [F[0]] + U[0..] == [F[0]] + U
  {
    var T := TicksOf(s.slots, U);
    InsertCorrectedAtHeadIs(s, time, cb, U, F);
    forall i | 0 <= i < |U| ensures time <= T[i] {
      assert T[0] <= T[i];
    }
    PushedConsistent(s, U, F, time, cb);
    assert U[..0] + [F[0]] + U[0..] == [F[0]] + U;
  }

  /** The splice case: the new entry goes after the `k` earlier ones. */
  lemma InsertCorrectedAfterKeeps(s: State, time: U32, cb: CallBack, U: seq<int>, F: seq<int>)
    requires ConsistentWith(s, U, F) && |U| < MaxCallBacks
    requires CountBelow(TicksOf(s.slots, U), time) > 0
    ensures InsertReady(s) && |F| > 0
    ensures var k := CountBelow(TicksOf(s.slots, U), time);
      var r := InsertCorrected(s, time, cb);
      ConsistentWith(r, U[..k] + [F[0]] + U[k..], F[1..]) &&
      r.slots[F[0]] == Slot(time, r.slots[F[0]].next, true, cb) &&
      PayloadKept(s.slots, r.slots, F[0])
  {
    var k := CountBelow(TicksOf(s.slots, U), time);
    var T := TicksOf(s.slots, U);
    InsertCorrectedAfterIs(s, time, cb, U, F);
    assert U == U[..k] + U[k..];
    forall i | k <= i < |U| ensures time <= T[i] {
      assert T[k] <= T[i];
    }
    var lead := if k < |U| then U[k] else NullSentinel;
    SplicedConsistent(s, U, F, U[..k], U[k..], time, cb, lead);
  }

  /** Putting `n` at position `k` adds exactly `n`. */
  lemma SpliceMembers(U: seq<int>, k: int, n: int)
    requires 0 <= k <= |U|
    ensures forall x :: x in U[..k] + [n] + U[k..] <==> x in U || x == n
    ensures multiset(U[..k] + [n] + U[k..]) == multiset(U) + multiset{n}
  {
    assert U == U[..k] + U[k..];
  }

  /** The repaired insert keeps the invariants and the flags, and adds exactly
      the popped free slot to the used list. */
  lemma InsertCorrectedKeepsValid(s: State, time: U32, cb: CallBack)
    requires Valid(s) && s.mgr.totalCallBacks < MaxCallBacks
    ensures InsertReady(s)
    ensures var r := InsertCorrected(s, time, cb);
      Valid(r) &&
      multiset(UsedList(r).value) == multiset(UsedList(s).value) + multiset{s.mgr.freeHead} &&
      FreeList(r).value == FreeList(s).value[1..] &&
      r.slots[s.mgr.freeHead].ticks == time && r.slots[s.mgr.freeHead].callBackFun == cb
  {
    var U, F := UsedList(s).value, FreeList(s).value;
    InsertCorrectedKeepsInvariant(s, time, cb, U, F);
    var k := CountBelow(TicksOf(s.slots, U), time);
    var r := InsertCorrected(s, time, cb);
    var L := U[..k] + [F[0]] + U[k..];
    ConsistentLists(r, L, F[1..]);
    assert F[0] == s.mgr.freeHead by { assert LinkAt(s.slots, F, 0); }
    SpliceMembers(U, k, F[0]);
    FlagsAfterInsert(s.slots, r.slots, U, L, F[0]);
  }

  // ------------------------------------------------------------- timer tick

  /** One pass of the loop body of `intTimer0` repaired: the same steps
      without overwriting the used head after the push, so the head is the
      fired slot's old successor. */
  function FireHeadCorrected(s: State): (r: (State, CallBack))
    requires |s.slots| == MaxCallBacks && 0 <= s.mgr.usedHead < MaxCallBacks
    ensures |r.0.slots| == MaxCallBacks && r.0.now == s.now
    ensures r.1 == s.slots[s.mgr.usedHead].callBackFun
    ensures r.0.mgr.freeHead == s.mgr.usedHead && r.0.mgr.usedHead == s.slots[s.mgr.usedHead].next
    ensures r.0.mgr.totalCallBacks == DecU8(s.mgr.totalCallBacks)
    ensures var h := s.mgr.usedHead;
      r.0.slots == s.slots[h := r.0.slots[h]] &&
      r.0.slots[h].ticks == s.slots[h].ticks && r.0.slots[h].callBackFun == s.slots[h].callBackFun &&
      !r.0.slots[h].used && r.0.slots[h].next == s.mgr.freeHead
  {
    var h := s.mgr.usedHead;
    var s1 := s.(slots := s.slots[h := s.slots[h].(used := false)],
                 mgr := s.mgr.(totalCallBacks := DecU8(s.mgr.totalCallBacks)));
    var (s2, freed) := PopHeadUsed(s1);
    (InsertHeadFree(s2, freed), s.slots[h].callBackFun)
  }

  /** The loop test of the repaired `intTimer0`: the used head is a slot whose
      tick the counter has reached, now or earlier. */
  predicate HeadReached(s: State)
    requires |s.slots| == MaxCallBacks
  {
    0 <= s.mgr.usedHead < MaxCallBacks && s.slots[s.mgr.usedHead].ticks <= s.now
  }

  /** The repaired loop of `intTimer0`: fire the used head while its tick has
      been reached, at most `fuel` times; returns the state and the callbacks
      called. */
  function FireDue(s: State, fuel: nat): (r: (State, seq<CallBack>))
    requires |s.slots| == MaxCallBacks
    ensures |r.0.slots| == MaxCallBacks && r.0.now == s.now && |r.1| <= fuel
    decreases fuel
  {
    if fuel == 0 || !HeadReached(s) then (s, [])
    else
      var (s1, cb) := FireHeadCorrected(s);
      var (s2, cbs) := FireDue(s1, fuel - 1);
      (s2, [cb] + cbs)
  }

  /** `intTimer0` repaired: advance the counter, and fire every head whose
      tick has been reached, so an alarm whose tick is already behind the
      counter is called at the next tick instead of being skipped. The
      pool holds MAX_CALL_BACKS slots, so that many passes always suffice
      (see TickCorrectedKeepsInvariant). */
  function TickCorrected(s: State): (r: (State, seq<CallBack>))
    requires |s.slots| == MaxCallBacks
    ensures r.0.now == AddU32(s.now, 1)
    ensures s.mgr.totalCallBacks == 0 ==> r == (s.(now := AddU32(s.now, 1)), [])
  {
    var s1 := s.(now := AddU32(s.now, 1));
    if s1.mgr.totalCallBacks == 0 then (s1, []) else FireDue(s1, MaxCallBacks)
  }

  /** Length of the leading run of `t` not above `now`. */
  function DueCount(t: seq<int>, now: int): (j: nat)
    ensures j <= |t|
    ensures forall i :: 0 <= i < j ==> t[i] <= now
    ensures j < |t| ==> t[j] > now
  {
    if |t| == 0 || t[0] > now then 0 else 1 + DueCount(t[1..], now)
  }

  /** A sequence backwards. */
  function Reversed(L: seq<int>): (r: seq<int>)
    ensures |r| == |L| && forall i :: 0 <= i < |L| ==> r[i] == L[|L| - 1 - i]
  {
    if |L| == 0 then [] else Reversed(L[1..]) + [L[0]]
  }

  /** No slot's tick or callback changes. */
  predicate TimesKept(slots: seq<Slot>, slots': seq<Slot>)
  {
    |slots'| == |slots| &&
    forall x :: 0 <= x < |slots| ==>
      slots'[x].ticks == slots[x].ticks && slots'[x].callBackFun == slots[x].callBackFun
  }

  /** One repaired pass written out as one state update. */
  lemma FireHeadCorrectedIs(s: State)
    requires |s.slots| == MaxCallBacks && 0 <= s.mgr.usedHead < MaxCallBacks
    ensures var h := s.mgr.usedHead;
      FireHeadCorrected(s).0 ==
        State(s.slots[h := s.slots[h].(used := false, next := s.mgr.freeHead)],
              Manager(s.slots[h].next, h, DecU8(s.mgr.totalCallBacks)), s.now)
  {
  }

  /** The lists after one repaired pass on a consistent state: the head moves
      from the used list to the front of the free list. */
  lemma FiredCorrectedChains(s: State, U: seq<int>, F: seq<int>)
    requires ConsistentWith(s, U, F) && |U| > 0
    ensures 0 <= U[0] < MaxCallBacks
    ensures var h := U[0];
      var slots' := s.slots[h := s.slots[h].(used := false, next := s.mgr.freeHead)];
      IsChain(slots', s.slots[h].next, U[1..]) && IsChain(slots', h, [h] + F)
  {
    PartitionFacts(U, F);
    ChainTail(s.slots, s.mgr.usedHead, U);
    var h := U[0];
    var slots' := s.slots[h := s.slots[h].(used := false, next := s.mgr.freeHead)];
    assert h in U;
    assert h !in U[1..] by {
      forall j | 0 <= j < |U[1..]| ensures U[1..][j] != h { assert U[1..][j] == U[j + 1]; }
    }
    forall i | 0 <= i < |U[1..]| ensures NextKept(s.slots, slots', U[1..][i]) {
      assert U[1..][i] in U[1..];
    }
    ChainFrame(s.slots, slots', s.slots[h].next, U[1..]);
    forall i | 0 <= i < |F| ensures NextKept(s.slots, slots', F[i]) {
      assert F[i] in F;
    }
    ChainPush(s.slots, slots', s.mgr.freeHead, F, h);
  }

  /** Clearing the flag of a distinct list's head keeps the flags in step
      with the rest of the list. */
  lemma FlagsAfterFire(slots: seq<Slot>, slots': seq<Slot>, U: seq<int>)
    requires |slots| == MaxCallBacks && |U| > 0 && Distinct(U) && FlagsMatch(slots, U)
    requires 0 <= U[0] < MaxCallBacks && |slots'| == MaxCallBacks && !slots'[U[0]].used
    requires forall x :: 0 <= x < MaxCallBacks && x != U[0] ==> slots'[x].used == slots[x].used
    ensures FlagsMatch(slots', U[1..])
  {
    var h := U[0];
    forall x | 0 <= x < MaxCallBacks ensures slots'[x].used <==> x in U[1..] {
      if x == h {
        assert h !in U[1..] by {
          forall j | 0 <= j < |U[1..]| ensures U[1..][j] != h { assert U[1..][j] == U[j + 1]; }
        }
      } else {
        assert U == [h] + U[1..];
        assert x in U <==> x in U[1..];
      }
    }
  }

  /** Changing slots without changing ticks leaves the ticks of a list as they were. */
  lemma TicksOfKept(slots: seq<Slot>, slots': seq<Slot>, U: seq<int>)
    requires InPool(slots, U) && TimesKept(slots, slots')
    ensures InPool(slots', U)
    ensures TicksOf(slots', U) == TicksOf(slots, U) && CallBacksOf(slots', U) == CallBacksOf(slots, U)
  {
  }

  /** Dropping the first entry of a sorted list whose ticks are unchanged
      leaves it sorted. */
  lemma SortedTail(slots: seq<Slot>, slots': seq<Slot>, U: seq<int>)
    requires InPool(slots, U) && TimesKept(slots, slots') && |U| > 0 && Sorted(TicksOf(slots, U))
    ensures InPool(slots', U[1..]) && Sorted(TicksOf(slots', U[1..]))
  {
    TicksOfKept(slots, slots', U);
    var T := TicksOf(slots, U);
    var T' := TicksOf(slots', U[1..]);
    forall i, j | 0 <= i < j < |T'| ensures T'[i] <= T'[j] {
      assert T'[i] == T[i + 1] && T'[j] == T[j + 1];
    }
  }

  /** Moving the head of the used list to the front of the free list keeps
      the partition. */
  lemma PartitionMoveHead(U: seq<int>, F: seq<int>)
    requires Partition(U, F) && |U| > 0
    ensures Partition(U[1..], [U[0]] + F)
  {
    assert U == [U[0]] + U[1..];
    assert multiset(U[1..] + ([U[0]] + F)) == multiset(U + F);
  }

  /** After one repaired pass on a consistent state, the invariants hold with
      the head moved to the free list, and no tick or callback changed. */
  lemma FiredCorrectedConsistent(s: State, U: seq<int>, F: seq<int>)
    requires ConsistentWith(s, U, F) && |U| > 0
    ensures 0 <= U[0] < MaxCallBacks
    ensures var h := U[0];
      var slots' := s.slots[h := s.slots[h].(used := false, next := s.mgr.freeHead)];
      ConsistentWith(State(slots', Manager(s.slots[h].next, h, DecU8(s.mgr.totalCallBacks)), s.now),
                     U[1..], [h] + F) &&
      TimesKept(s.slots, slots')
  {
    FiredCorrectedChains(s, U, F);
    PartitionFacts(U, F);
    var h := U[0];
    var slots' := s.slots[h := s.slots[h].(used := false, next := s.mgr.freeHead)];
    PartitionMoveHead(U, F);
    SortedTail(s.slots, slots', U);
  }

  /** One step of the repaired loop when the head is due. */
  lemma FireDueUnfold(s: State, fuel: nat)
    requires |s.slots| == MaxCallBacks && HeadReached(s) && fuel > 0
    ensures var (s1, cb) := FireHeadCorrected(s);
      FireDue(s, fuel) == (FireDue(s1, fuel - 1).0, [cb] + FireDue(s1, fuel - 1).1)
  {
  }

  /** Bookkeeping on the split of the used list after one firing. */
  lemma DueSplitStep(U: seq<int>, F: seq<int>, j: int)
    requires 1 <= j <= |U|
    ensures U[1..][j - 1..] == U[j..]
    ensures Reversed(U[1..][..j - 1]) + ([U[0]] + F) == Reversed(U[..j]) + F
  {
    assert U[..j][1..] == U[1..][..j - 1];
    assert Reversed(U[..j]) == Reversed(U[1..][..j - 1]) + [U[0]];
  }

  /** The callbacks of a due run: the head's, then those of the rest of the run. */
  lemma CallBacksStep(slots: seq<Slot>, slots': seq<Slot>, U: seq<int>, j: int)
    requires InPool(slots, U) && TimesKept(slots, slots') && 1 <= j <= |U|
    ensures InPool(slots, U[..j]) && InPool(slots', U[1..][..j - 1])
    ensures CallBacksOf(slots, U[..j]) == [slots[U[0]].callBackFun] + CallBacksOf(slots', U[1..][..j - 1])
  {
    assert forall i :: 0 <= i < j ==> U[..j][i] == U[i];
    var V := U[1..][..j - 1];
    assert forall i :: 0 <= i < |V| ==> V[i] == U[i + 1];
  }

  /** What the repaired loop achieves from state `s` with used list `U` and
      free list `F`: the leading run of `U` whose tick has been reached is
      fired in list order and moved, last fired first, to the front of the free list; the
      rest of `U` stays; the invariants hold; no tick or callback changes. */
  predicate FiresDueRun(s: State, U: seq<int>, F: seq<int>, fuel: nat)
    requires |s.slots| == MaxCallBacks && InPool(s.slots, U)
  {
    var j := DueCount(TicksOf(s.slots, U), s.now);
    var (r, fired) := FireDue(s, fuel);
    ConsistentWith(r, U[j..], Reversed(U[..j]) + F) &&
    TimesKept(s.slots, r.slots) && fired == CallBacksOf(s.slots, U[..j])
  }

  /** When the head is not due (or there is none) the loop does nothing. */
  lemma FireDueNothingDue(s: State, U: seq<int>, F: seq<int>, fuel: nat)
    requires ConsistentWith(s, U, F)
    requires |U| == 0 || TicksOf(s.slots, U)[0] > s.now
    ensures FiresDueRun(s, U, F, fuel)
  {
    var j := DueCount(TicksOf(s.slots, U), s.now);
    if |U| > 0 { assert LinkAt(s.slots, U, 0); }
    assert !HeadReached(s);
    assert j == 0 && U[..j] == [] && U[j..] == U;
    assert Reversed([]) + F == F;
  }

  /** One repaired pass on a consistent state moves the head to the free list
      and keeps the invariants. */
  lemma FireHeadCorrectedKeeps(s: State, U: seq<int>, F: seq<int>)
    requires ConsistentWith(s, U, F) && |U| > 0
    ensures 0 <= s.mgr.usedHead < MaxCallBacks && s.mgr.usedHead == U[0]
    ensures InPool(s.slots, U) && TicksOf(s.slots, U)[0] == s.slots[U[0]].ticks
    ensures var s1 := FireHeadCorrected(s).0;
      ConsistentWith(s1, U[1..], [U[0]] + F) && TimesKept(s.slots, s1.slots) && InPool(s1.slots, U[1..]) &&
      s1.slots == s.slots[U[0] := s.slots[U[0]].(used := false, next := s.mgr.freeHead)]
  {
    assert LinkAt(s.slots, U, 0);
    FireHeadCorrectedIs(s);
    FiredCorrectedConsistent(s, U, F);
  }

  /** When the head is due, what the loop achieves from the state after one
      firing extends to the state before it. */
  lemma FireDueStep(s: State, U: seq<int>, F: seq<int>, fuel: nat, s1: State, rest: bool)
    requires |s.slots| == MaxCallBacks && InPool(s.slots, U) && |U| > 0 && fuel > 0
    requires s.mgr.usedHead == U[0] && TicksOf(s.slots, U)[0] <= s.now
    requires s1 == FireHeadCorrected(s).0
    requires TimesKept(s.slots, s1.slots) && InPool(s1.slots, U[1..])
    requires rest == FiresDueRun(s1, U[1..], [U[0]] + F, fuel - 1) && rest
    ensures FiresDueRun(s, U, F, fuel)
  {
    var T := TicksOf(s.slots, U);
    var j := DueCount(T, s.now);
    TicksOfKept(s.slots, s1.slots, U);
    assert TicksOf(s1.slots, U[1..]) == T[1..];
    FireDueUnfold(s, fuel);
    DueSplitStep(U, F, j);
    CallBacksStep(s.slots, s1.slots, U, j);
  }

  /** The repaired loop fires exactly the due run at the front of the used list. */
  lemma {:induction false} FireDueKeepsInvariant(s: State, U: seq<int>, F: seq<int>, fuel: nat)
    requires ConsistentWith(s, U, F) && |U| <= fuel
    ensures FiresDueRun(s, U, F, fuel)
    decreases fuel
  {
    if |U| == 0 || TicksOf(s.slots, U)[0] > s.now {
      FireDueNothingDue(s, U, F, fuel);
    } else {
      FireHeadCorrectedKeeps(s, U, F);
      var s1 := FireHeadCorrected(s).0;
      var U1, F1, fuel1 := U[1..], [U[0]] + F, fuel - 1;
      FireDueKeepsInvariant(s1, U1, F1, fuel1);
      FireDueStep(s, U, F, fuel, s1, FiresDueRun(s1, U1, F1, fuel1));
    }
  }

  /** The repaired loop clears the `used` flag of exactly the slots it fires. */
  predicate ClearsDueFlags(s: State, U: seq<int>, fuel: nat)
    requires |s.slots| == MaxCallBacks && InPool(s.slots, U)
  {
    var j := DueCount(TicksOf(s.slots, U), s.now);
    var r := FireDue(s, fuel).0;
    forall x :: 0 <= x < MaxCallBacks ==> (r.slots[x].used <==> s.slots[x].used && x !in U[..j])
  }

  /** The flags part of the inductive step. */
  lemma ClearsDueFlagsStep(s: State, U: seq<int>, fuel: nat, s1: State, rest: bool)
    requires |s.slots| == MaxCallBacks && InPool(s.slots, U) && |U| > 0 && fuel > 0
    requires s.mgr.usedHead == U[0] && TicksOf(s.slots, U)[0] <= s.now
    requires s1 == FireHeadCorrected(s).0
    requires s1.slots == s.slots[U[0] := s.slots[U[0]].(used := false, next := s.mgr.freeHead)]
    requires InPool(s1.slots, U[1..])
    requires rest == ClearsDueFlags(s1, U[1..], fuel - 1) && rest
    ensures ClearsDueFlags(s, U, fuel)
  {
    var T := TicksOf(s.slots, U);
    var j := DueCount(T, s.now);
    assert TimesKept(s.slots, s1.slots);
    TicksOfKept(s.slots, s1.slots, U);
    assert TicksOf(s1.slots, U[1..]) == T[1..];
    FireDueUnfold(s, fuel);
    assert U[..j] == [U[0]] + U[1..][..j - 1];
  }

  /** The repaired loop clears exactly the flags of the slots it fires. */
  lemma {:induction false} FireDueClearsFlags(s: State, U: seq<int>, F: seq<int>, fuel: nat)
    requires ConsistentWith(s, U, F) && |U| <= fuel
    ensures ClearsDueFlags(s, U, fuel)
    decreases fuel
  {
    var j := DueCount(TicksOf(s.slots, U), s.now);
    if |U| == 0 || TicksOf(s.slots, U)[0] > s.now {
      if |U| > 0 { assert LinkAt(s.slots, U, 0); }
      assert !HeadReached(s);
      assert j == 0 && U[..j] == [];
    } else {
      FireHeadCorrectedKeeps(s, U, F);
      var s1 := FireHeadCorrected(s).0;
      var U1, F1, fuel1 := U[1..], [U[0]] + F, fuel - 1;
      FireDueClearsFlags(s1, U1, F1, fuel1);
      ClearsDueFlagsStep(s, U, fuel, s1, ClearsDueFlags(s1, U1, fuel1));
    }
  }

  /** Clearing the flags of a leading run of a distinct used list leaves the
      flags in step with the rest of the list. */
  lemma FlagsFromCleared(slots: seq<Slot>, slots': seq<Slot>, U: seq<int>, j: int)
    requires |slots| == MaxCallBacks && |slots'| == MaxCallBacks
    requires FlagsMatch(slots, U) && Distinct(U) && 0 <= j <= |U|
    requires forall x :: 0 <= x < MaxCallBacks ==> (slots'[x].used <==> slots[x].used && x !in U[..j])
    ensures FlagsMatch(slots', U[j..])
  {
    forall x | 0 <= x < MaxCallBacks ensures slots'[x].used <==> x in U[j..] {
      assert U == U[..j] + U[j..];
    }
  }

  /** A repaired tick advances the counter and fires, in list order, exactly
      the leading run of the used list whose tick the new counter value has
      reached; the fired slots go to the front of the free list, the rest of
      the used list stays, the invariants hold, and the new used head (if
      any) lies ahead of the counter, so no reached alarm is left behind. */
  lemma TickCorrectedKeepsInvariant(s: State, U: seq<int>, F: seq<int>)
    requires ConsistentWith(s, U, F)
    ensures var now := AddU32(s.now, 1);
      var j := DueCount(TicksOf(s.slots, U), now);
      var (r, fired) := TickCorrected(s);
      ConsistentWith(r, U[j..], Reversed(U[..j]) + F) &&
      fired == CallBacksOf(s.slots, U[..j]) && TimesKept(s.slots, r.slots) &&
      (j < |U| ==> r.slots[U[j]].ticks > r.now)
  {
    PartitionFacts(U, F);
    var s1 := s.(now := AddU32(s.now, 1));
    assert ConsistentWith(s1, U, F);
    var j := DueCount(TicksOf(s.slots, U), s1.now);
    if s.mgr.totalCallBacks == 0 {
      assert U == [] && j == 0 && U[..j] == [] && U[j..] == U;
      assert Reversed([]) + F == F;
    } else {
      FireDueKeepsInvariant(s1, U, F, MaxCallBacks);
      var r := TickCorrected(s).0;
      if j < |U| {
        assert U[j..][0] == U[j];
        assert TicksOf(r.slots, U[j..])[0] == r.slots[U[j]].ticks;
      }
    }
  }

  /** The repaired tick also keeps every slot's flag in step with the used list. */
  lemma TickCorrectedKeepsValid(s: State)
    requires Valid(s)
    ensures var U := UsedList(s).value;
      var j := DueCount(TicksOf(s.slots, U), AddU32(s.now, 1));
      var (r, fired) := TickCorrected(s);
      Valid(r) && UsedList(r).value == U[j..] && fired == CallBacksOf(s.slots, U[..j])
  {
    var U, F := UsedList(s).value, FreeList(s).value;
    TickCorrectedKeepsInvariant(s, U, F);
    var j := DueCount(TicksOf(s.slots, U), AddU32(s.now, 1));
    var r := TickCorrected(s).0;
    ConsistentLists(r, U[j..], Reversed(U[..j]) + F);
    PartitionFacts(U, F);
    var s1 := s.(now := AddU32(s.now, 1));
    if s.mgr.totalCallBacks != 0 {
      FireDueClearsFlags(s1, U, F, MaxCallBacks);
      FlagsFromCleared(s.slots, r.slots, U, j);
    } else {
      assert U[j..] == U;
    }
  }

  // ------------------------------------------------------------ requestAlarm

  /** `requestAlarm` over the repaired insert. */
  function RequestAlarmCorrected(s: State, delay: U32, cb: CallBack): (r: (State, bool))
    requires cb != NullCallBack && s.mgr.totalCallBacks < MaxCallBacks ==> InsertReady(s)
    ensures !r.1 <==> cb == NullCallBack || s.mgr.totalCallBacks >= MaxCallBacks
    ensures !r.1 ==> r.0 == s
  {
    if cb == NullCallBack then (s, false)
    else if delay > Uint32Max then (s, false)
    else if s.mgr.totalCallBacks >= MaxCallBacks then (s, false)
    else (InsertCorrected(s, AddU32(s.now, delay), cb), true)
  }

  /** A request on a valid scheduler is refused exactly for a NULL callback or
      a full pool and then changes nothing; otherwise the popped free slot
      joins the used list with the wrapped alarm tick and the callback, and
      the scheduler stays valid. */
  lemma RequestAlarmCorrectedKeepsValid(s: State, delay: U32, cb: CallBack)
    requires Valid(s)
    ensures cb != NullCallBack && s.mgr.totalCallBacks < MaxCallBacks ==> InsertReady(s)
    ensures var (r, ok) := RequestAlarmCorrected(s, delay, cb);
      Valid(r) &&
      (ok <==> cb != NullCallBack && |UsedList(s).value| < MaxCallBacks) &&
      (ok ==> multiset(UsedList(r).value) == multiset(UsedList(s).value) + multiset{s.mgr.freeHead} &&
              r.slots[s.mgr.freeHead].ticks == AddU32(s.now, delay) &&
              r.slots[s.mgr.freeHead].callBackFun == cb)
  {
    if cb != NullCallBack && s.mgr.totalCallBacks < MaxCallBacks {
      InsertCorrectedKeepsValid(s, AddU32(s.now, delay), cb);
    }
  }

  /** A slot put at position `k` of `U`, with only its own payload changed:
      the ticks and callbacks along the new list are the old ones with the
      new slot's put at position `k`. */
  lemma PairsSpliced(slots: seq<Slot>, slots': seq<Slot>, U: seq<int>, k: int, n: int)
    requires PayloadKept(slots, slots', n) && 0 <= n < |slots| && n !in U
    requires InPool(slots, U) && 0 <= k <= |U|
    ensures InPool(slots', U[..k] + [n] + U[k..])
    ensures TicksOf(slots', U[..k] + [n] + U[k..]) ==
      TicksOf(slots, U)[..k] + [slots'[n].ticks] + TicksOf(slots, U)[k..]
    ensures CallBacksOf(slots', U[..k] + [n] + U[k..]) ==
      CallBacksOf(slots, U)[..k] + [slots'[n].callBackFun] + CallBacksOf(slots, U)[k..]
  {
    assert U == U[..k] + U[k..];
    assert TicksOf(slots, U[..k]) == TicksOf(slots, U)[..k];
    assert TicksOf(slots, U[k..]) == TicksOf(slots, U)[k..];
    assert CallBacksOf(slots, U[..k]) == CallBacksOf(slots, U)[..k];
    assert CallBacksOf(slots, U[k..]) == CallBacksOf(slots, U)[k..];
    SpliceTicks(slots, slots', U[..k], U[k..], n);
  }

  /** The repaired insert read as (tick, callback) pairs: the new pair goes
      into the used list's sequence at the first position whose tick is not
      below the new one. */
  lemma InsertCorrectedPairs(s: State, time: U32, cb: CallBack, U: seq<int>, F: seq<int>)
    requires ConsistentWith(s, U, F) && |U| < MaxCallBacks
    ensures InsertReady(s) && |F| > 0
    ensures var T := TicksOf(s.slots, U);
      var C := CallBacksOf(s.slots, U);
      var k := CountBelow(T, time);
      var r := InsertCorrected(s, time, cb);
      ConsistentWith(r, U[..k] + [F[0]] + U[k..], F[1..]) &&
      TicksOf(r.slots, U[..k] + [F[0]] + U[k..]) == T[..k] + [time] + T[k..] &&
      CallBacksOf(r.slots, U[..k] + [F[0]] + U[k..]) == C[..k] + [cb] + C[k..]
  {
    InsertCorrectedKeepsInvariant(s, time, cb, U, F);
    PartitionFacts(U, F);
    assert F[0] !in U by { assert F[0] in F; }
    var k := CountBelow(TicksOf(s.slots, U), time);
    PairsSpliced(s.slots, InsertCorrected(s, time, cb).slots, U, k, F[0]);
  }

  /** On a consistent scheduler an accepted request puts its alarm tick and
      callback into the used list's sequence of (tick, callback) pairs in
      order, in front of any pair with the same tick. */
  lemma RequestAlarmCorrectedInserts(s: State, delay: U32, cb: CallBack, U: seq<int>, F: seq<int>)
    requires ConsistentWith(s, U, F) && |U| < MaxCallBacks && cb != NullCallBack
    ensures InsertReady(s) && |F| > 0
    ensures var time := AddU32(s.now, delay);
      var T := TicksOf(s.slots, U);
      var C := CallBacksOf(s.slots, U);
      var k := CountBelow(T, time);
      var (r, ok) := RequestAlarmCorrected(s, delay, cb);
      ok && r.now == s.now && ConsistentWith(r, U[..k] + [F[0]] + U[k..], F[1..]) &&
      TicksOf(r.slots, U[..k] + [F[0]] + U[k..]) == T[..k] + [time] + T[k..] &&
      CallBacksOf(r.slots, U[..k] + [F[0]] + U[k..]) == C[..k] + [cb] + C[k..]
  {
    InsertCorrectedPairs(s, AddU32(s.now, delay), cb, U, F);
  }

  // --------------------------------------------------------------- initAlarm

  /** `initAlarm` leaves a valid scheduler with nothing scheduled. */
  lemma InitAlarmValid(s: State)
    requires |s.slots| == MaxCallBacks
    ensures Valid(InitAlarm(s)) && UsedList(InitAlarm(s)).value == []
  {
    InitAlarmResets(s);
  }

  // ------------------------------------------------------------ stale alarms

  /** With the repaired tick, a request with delay 0 (its tick is the one the
      counter already shows) is called at the next tick, as the only
      callback, and leaves the used list empty. */
  lemma StaleRequestFiresCorrected(s: State, cb: CallBack, F: seq<int>)
    requires ConsistentWith(s, [], F) && cb != NullCallBack && s.now < Uint32Max
    ensures InsertReady(s)
    ensures var r := RequestAlarmCorrected(s, 0, cb).0;
      var (t, fired) := TickCorrected(r);
      fired == [cb] && t.now == s.now + 1 && UsedList(t) == Some([])
  {
    RequestAlarmCorrectedInserts(s, 0, cb, [], F);
    var r := RequestAlarmCorrected(s, 0, cb).0;
    var U := [] + [F[0]] + [];
    assert U == [F[0]];
    assert TicksOf(r.slots, U) == [s.now];
    TickCorrectedKeepsInvariant(r, U, F[1..]);
    assert DueCount([s.now], s.now + 1) == 1;
    var t := TickCorrected(r).0;
    ConsistentLists(t, U[1..], Reversed(U[..1]) + F[1..]);
    assert U[1..] == [];
  }
}

=== FILE: scenario.dfy ===
/** The worked example of timer.h: at tick 3, five requests (2, foo), (4, foo),
    (2, foo), (5, bar) and (3, baz), then two ticks. The alarm tick is the
    current tick plus the delay, so the requests are for ticks 5, 7, 5, 8
    and 6. Worked through first with the operations as written, then with
    the repaired ones. */
module Scenario {
  import opened TimerH
  import opened StaticLists
  import opened AlarmSpec
  import opened AlarmCorrected

  /** Three distinct, non-NULL callbacks. */
  const Foo: CallBack := 1
  const Bar: CallBack := 2
  const Baz: CallBack := 3

  /** The statics before any code runs: all zero. */
  function PowerUp(): (s: State)
    ensures |s.slots| == MaxCallBacks && s.now == 0
    ensures forall i :: 0 <= i < MaxCallBacks ==> s.slots[i].ticks == 0
  {
    State(seq(MaxCallBacks, i => Slot(0, 0, false, NullCallBack)), Manager(0, 0, 0), 0)
  }

  /** What the statics hold after `initAlarm` and three idle ticks: the
      counter reads 3, the free list holds every slot in order, nothing is
      scheduled and every tick field is still 0. */
  predicate Booted(s: State)
  {
    ConsistentWith(s, [], AllSlots()) && s.now == 3 &&
    forall i :: 0 <= i < MaxCallBacks ==> s.slots[i].ticks == 0
  }

  /** `initAlarm` on the power-up statics, then three ticks, reaches such a state. */
  lemma BootReachesBooted()
    ensures var s0 := InitAlarm(PowerUp());
      TickReady(s0) && var s1 := TickAsWritten(s0).0;
      TickReady(s1) && var s2 := TickAsWritten(s1).0;
      TickReady(s2) && Booted(TickAsWritten(s2).0)
  {
    InitAlarmResets(PowerUp());
  }

  /** The scheduler's lists, with the ticks and callbacks along the used list. */
  predicate Pairs(s: State, U: seq<int>, F: seq<int>, T: seq<int>, C: seq<CallBack>)
  {
    ConsistentWith(s, U, F) && TicksOf(s.slots, U) == T && CallBacksOf(s.slots, U) == C
  }

  /** At tick 3 an accepted request is the insert at tick 3 plus the delay. */
  lemma RequestAtThree(s: State, delay: U32, cb: CallBack)
    requires InsertReady(s) && s.now == 3 && delay < 100
    requires cb != NullCallBack && s.mgr.totalCallBacks < MaxCallBacks
    ensures RequestAlarmAsWritten(s, delay, cb) == (InsertAsWritten(s, 3 + delay, cb), true)
    ensures RequestAlarmCorrected(s, delay, cb) == (InsertCorrected(s, 3 + delay, cb), true)
  {
  }

  // -------------------------------------------------------------- as written

  /** An insert into an empty used list, as written. */
  lemma EmptyStep(s: State, F: seq<int>, time: U32, cb: CallBack)
    requires Pairs(s, [], F, [], [])
    ensures |F| > 0 && InsertReady(s)
    ensures var r := InsertAsWritten(s, time, cb);
      Pairs(r, [F[0]], F[1..], [time], [cb]) && PayloadKept(s.slots, r.slots, F[0])
  {
    InsertIntoEmptyList(s, time, cb, [], F);
  }

  /** An insert later than every scheduled tick, as written. */
  lemma AppendStep(s: State, U: seq<int>, F: seq<int>, T: seq<int>, C: seq<CallBack>, time: U32, cb: CallBack)
    requires Pairs(s, U, F, T, C) && 0 < |U| < MaxCallBacks
    requires forall i :: 0 <= i < |T| ==> T[i] < time
    ensures |F| > 0 && InsertReady(s)
    ensures var r := InsertAsWritten(s, time, cb);
      Pairs(r, U + [F[0]], F[1..], T + [time], C + [cb]) && PayloadKept(s.slots, r.slots, F[0])
  {
    InsertAfterAllKeepsInvariant(s, time, cb, U, F);
    var r := InsertAsWritten(s, time, cb);
    FreeHeadNotUsed(U, F);
    assert U + [F[0]] + [] == U + [F[0]];
    SpliceTicks(s.slots, r.slots, U, [], F[0]);
    assert TicksOf(s.slots, []) == [] && CallBacksOf(s.slots, []) == [];
  }

  /** An insert at the head's tick, as written. */
  lemma TieStep(s: State, U: seq<int>, F: seq<int>, T: seq<int>, C: seq<CallBack>, time: U32, cb: CallBack)
    requires Pairs(s, U, F, T, C) && 0 < |U| < MaxCallBacks && T[0] == time
    ensures |F| > 0 && InsertReady(s)
    ensures var r := InsertAsWritten(s, time, cb);
      Pairs(r, [U[0], F[0]] + U[1..], F[1..], [T[0], time] + T[1..], [C[0], cb] + C[1..]) &&
      PayloadKept(s.slots, r.slots, F[0]) && r.slots[F[0]].used
  {
    InsertTieAtHeadKeepsInvariant(s, time, cb, U, F);
    FreeHeadNotUsed(U, F);
    PairsSpliced(s.slots, InsertAsWritten(s, time, cb).slots, U, 1, F[0]);
    assert U[..1] + [F[0]] + U[1..] == [U[0], F[0]] + U[1..];
    assert T[..1] + [time] + T[1..] == [T[0], time] + T[1..];
    assert C[..1] + [cb] + C[1..] == [C[0], cb] + C[1..];
  }

  /** An insert before a scheduled entry other than the head, as written:
      the entry at position `k` is on neither list afterwards, and the count
      is one more than the used list's length. */
  lemma DropStep(s: State, U: seq<int>, F: seq<int>, T: seq<int>, C: seq<CallBack>, time: U32, cb: CallBack, k: int)
    requires Pairs(s, U, F, T, C) && |U| < MaxCallBacks
    requires k == CountBelow(T, time) && 0 < k < |U|
    ensures |F| > 0 && InsertReady(s)
    ensures var r := InsertAsWritten(s, time, cb);
      var L := U[..k] + [F[0]] + U[k + 1..];
      UsedList(r) == Some(L) && FreeList(r) == Some(F[1..]) &&
      r.mgr.usedHead == s.mgr.usedHead && r.mgr.totalCallBacks == |U| + 1 &&
      U[k] !in L && U[k] !in F[1..]
  {
    InsertBeforeLaterEntryDropsIt(s, time, cb, U, F);
  }

  /** The same insert read as ticks and callbacks: the new slot's pair takes
      the place of the dropped entry's. */
  lemma DropStepPairs(s: State, U: seq<int>, F: seq<int>, T: seq<int>, C: seq<CallBack>, time: U32, cb: CallBack, k: int)
    requires Pairs(s, U, F, T, C) && |U| < MaxCallBacks
    requires k == CountBelow(T, time) && 0 < k < |U|
    ensures |F| > 0 && InsertReady(s)
    ensures var r := InsertAsWritten(s, time, cb);
      var L := U[..k] + [F[0]] + U[k + 1..];
      InPool(r.slots, L) &&
      TicksOf(r.slots, L) == T[..k] + [time] + T[k + 1..] &&
      CallBacksOf(r.slots, L) == C[..k] + [cb] + C[k + 1..] &&
      PayloadKept(s.slots, r.slots, F[0])
  {
    InsertBeforeLaterEntryDropsIt(s, time, cb, U, F);
    FreeHeadNotUsed(U, F);
    ReplacedTicks(s.slots, InsertAsWritten(s, time, cb).slots, U, k, F[0]);
  }

  /** Slot `n` put in place of the entry at position `k`, with only its own
      payload changed: the ticks and callbacks along the new list are the old
      ones with the new slot's in place of that entry's. */
  lemma ReplacedTicks(slots: seq<Slot>, slots': seq<Slot>, U: seq<int>, k: int, n: int)
    requires PayloadKept(slots, slots', n) && 0 <= n < |slots| && n !in U
    requires InPool(slots, U) && 0 <= k < |U|
    ensures InPool(slots', U[..k] + [n] + U[k + 1..])
    ensures TicksOf(slots', U[..k] + [n] + U[k + 1..]) ==
      TicksOf(slots, U)[..k] + [slots'[n].ticks] + TicksOf(slots, U)[k + 1..]
    ensures CallBacksOf(slots', U[..k] + [n] + U[k + 1..]) ==
      CallBacksOf(slots, U)[..k] + [slots'[n].callBackFun] + CallBacksOf(slots, U)[k + 1..]
  {
    assert U == U[..k] + [U[k]] + U[k + 1..];
    assert n !in U[..k] && n !in U[k + 1..];
    assert TicksOf(slots, U[..k]) == TicksOf(slots, U)[..k];
    assert TicksOf(slots, U[k + 1..]) == TicksOf(slots, U)[k + 1..];
    assert CallBacksOf(slots, U[..k]) == CallBacksOf(slots, U)[..k];
    assert CallBacksOf(slots, U[k + 1..]) == CallBacksOf(slots, U)[k + 1..];
    SpliceTicks(slots, slots', U[..k], U[k + 1..], n);
  }

  /** Request (2, foo) as written: slot 0, due at 5, is the whole used list. */
  lemma FirstAsWritten(s0: State) returns (s1: State)
    requires Booted(s0)
    ensures InsertReady(s0) && s0.mgr.totalCallBacks == 0
    ensures s1 == RequestAlarmAsWritten(s0, 2, Foo).0
    ensures Pairs(s1, [0], AllSlots()[1..], [5], [Foo]) && s1.now == 3 && s1.slots[5].ticks == 0
  {
    var A := AllSlots();
    assert TicksOf(s0.slots, []) == [] && CallBacksOf(s0.slots, []) == [] && A[0] == 0;
    EmptyStep(s0, A, 5, Foo);
    RequestAtThree(s0, 2, Foo);
    s1 := RequestAlarmAsWritten(s0, 2, Foo).0;
  }

  /** Request (4, foo) as written: slot 1, due at 7, is appended. */
  lemma SecondAsWritten(s1: State) returns (s2: State)
    requires Pairs(s1, [0], AllSlots()[1..], [5], [Foo]) && s1.now == 3 && s1.slots[5].ticks == 0
    ensures InsertReady(s1) && s1.mgr.totalCallBacks == 1
    ensures s2 == RequestAlarmAsWritten(s1, 4, Foo).0
    ensures Pairs(s2, [0, 1], AllSlots()[2..], [5, 7], [Foo, Foo]) && s2.now == 3 && s2.slots[5].ticks == 0
  {
    var A := AllSlots();
    assert A[1..][1..] == A[2..] && A[1..][0] == 1;
    assert [0] + [A[1..][0]] == [0, 1] && [5] + [7] == [5, 7] && [Foo] + [Foo] == [Foo, Foo];
    AppendStep(s1, [0], A[1..], [5], [Foo], 7, Foo);
    RequestAtThree(s1, 4, Foo);
    s2 := RequestAlarmAsWritten(s1, 4, Foo).0;
  }

  /** Request (2, foo) as written: slot 2, due at 5, ties with the head and
      lands right after it. */
  lemma ThirdAsWritten(s2: State) returns (s3: State)
    requires Pairs(s2, [0, 1], AllSlots()[2..], [5, 7], [Foo, Foo]) && s2.now == 3 && s2.slots[5].ticks == 0
    ensures InsertReady(s2) && s2.mgr.totalCallBacks == 2
    ensures s3 == RequestAlarmAsWritten(s2, 2, Foo).0
    ensures Pairs(s3, [0, 2, 1], AllSlots()[3..], [5, 5, 7], [Foo, Foo, Foo]) && s3.now == 3
    ensures s3.slots[5].ticks == 0 && s3.slots[2].used
  {
    var A := AllSlots();
    assert A[2..][1..] == A[3..] && A[2..][0] == 2;
    assert [0, A[2..][0]] + [0, 1][1..] == [0, 2, 1] && [5, 5] + [5, 7][1..] == [5, 5, 7];
    assert [Foo, Foo] + [Foo, Foo][1..] == [Foo, Foo, Foo];
    TieStep(s2, [0, 1], A[2..], [5, 7], [Foo, Foo], 5, Foo);
    RequestAtThree(s2, 2, Foo);
    s3 := RequestAlarmAsWritten(s2, 2, Foo).0;
  }

  /** Request (5, bar) as written: slot 3, due at 8, is appended. */
  lemma FourthAsWritten(s3: State) returns (s4: State)
    requires Pairs(s3, [0, 2, 1], AllSlots()[3..], [5, 5, 7], [Foo, Foo, Foo]) && s3.now == 3
    requires s3.slots[5].ticks == 0 && s3.slots[2].used
    ensures InsertReady(s3) && s3.mgr.totalCallBacks == 3
    ensures s4 == RequestAlarmAsWritten(s3, 5, Bar).0
    ensures Pairs(s4, [0, 2, 1, 3], AllSlots()[4..], [5, 5, 7, 8], [Foo, Foo, Foo, Bar]) && s4.now == 3
    ensures s4.slots[5].ticks == 0 && s4.slots[2].used
  {
    var A := AllSlots();
    assert A[3..][1..] == A[4..] && A[3..][0] == 3;
    assert [0, 2, 1] + [A[3..][0]] == [0, 2, 1, 3] && [5, 5, 7] + [8] == [5, 5, 7, 8];
    assert [Foo, Foo, Foo] + [Bar] == [Foo, Foo, Foo, Bar];
    AppendStep(s3, [0, 2, 1], A[3..], [5, 5, 7], [Foo, Foo, Foo], 8, Bar);
    RequestAtThree(s3, 5, Bar);
    s4 := RequestAlarmAsWritten(s3, 5, Bar).0;
  }

  /** Where the five requests leave the scheduler as written: the used list
      holds foo, foo, baz, bar at ticks 5, 5, 6, 8 while the count says five,
      and the delay-4 foo (slot 1, due at 7) is on neither list. */
  predicate RequestedAsWritten(s: State)
  {
    |s.slots| == MaxCallBacks && s.now == 3 &&
    UsedList(s) == Some([0, 2, 4, 3]) && FreeList(s) == Some(AllSlots()[5..]) &&
    s.mgr.usedHead == 0 && s.mgr.totalCallBacks == 5 &&
    InPool(s.slots, [0, 2, 4, 3]) &&
    TicksOf(s.slots, [0, 2, 4, 3]) == [5, 5, 6, 8] &&
    CallBacksOf(s.slots, [0, 2, 4, 3]) == [Foo, Foo, Baz, Bar] &&
    s.slots[1].ticks == 7 && s.slots[1].callBackFun == Foo && 1 !in AllSlots()[5..] &&
    s.slots[2].used && s.slots[5].ticks == 0
  }

  /** The insert of baz at tick 6 as written, on the scheduler the first
      four requests leave. */
  lemma InsertBazAsWritten(s4: State)
    requires Pairs(s4, [0, 2, 1, 3], AllSlots()[4..], [5, 5, 7, 8], [Foo, Foo, Foo, Bar])
    requires s4.slots[5].ticks == 0 && s4.slots[2].used
    ensures InsertReady(s4) && s4.mgr.totalCallBacks == 4
    ensures var r := InsertAsWritten(s4, 6, Baz);
      UsedList(r) == Some([0, 2, 4, 3]) && FreeList(r) == Some(AllSlots()[5..]) &&
      r.mgr.usedHead == 0 && r.mgr.totalCallBacks == 5 && r.now == s4.now &&
      InPool(r.slots, [0, 2, 4, 3]) &&
      TicksOf(r.slots, [0, 2, 4, 3]) == [5, 5, 6, 8] &&
      CallBacksOf(r.slots, [0, 2, 4, 3]) == [Foo, Foo, Baz, Bar] &&
      r.slots[1].ticks == 7 && r.slots[1].callBackFun == Foo &&
      r.slots[2].used && r.slots[5].ticks == 0
  {
    var A := AllSlots();
    assert A[4..][1..] == A[5..] && A[4..][0] == 4;
    assert TicksOf(s4.slots, [0, 2, 1, 3])[2] == s4.slots[1].ticks;
    assert CallBacksOf(s4.slots, [0, 2, 1, 3])[2] == s4.slots[1].callBackFun;
    assert s4.mgr.usedHead == 0 by { assert LinkAt(s4.slots, [0, 2, 1, 3], 0); }
    assert [0, 2, 1, 3][..2] + [A[4..][0]] + [0, 2, 1, 3][3..] == [0, 2, 4, 3];
    assert [5, 5, 7, 8][..2] + [6] + [5, 5, 7, 8][3..] == [5, 5, 6, 8];
    assert [Foo, Foo, Foo, Bar][..2] + [Baz] + [Foo, Foo, Foo, Bar][3..] == [Foo, Foo, Baz, Bar];
    assert CountBelow([5, 5, 7, 8], 6) == 2;
    DropStep(s4, [0, 2, 1, 3], A[4..], [5, 5, 7, 8], [Foo, Foo, Foo, Bar], 6, Baz, 2);
    DropStepPairs(s4, [0, 2, 1, 3], A[4..], [5, 5, 7, 8], [Foo, Foo, Foo, Bar], 6, Baz, 2);
  }

  /** Request (3, baz) as written: baz, due at 6, goes in front of the
      delay-4 foo at 7, which timer.c:147 then drops. */
  lemma FifthAsWritten(s4: State) returns (s5: State)
    requires Pairs(s4, [0, 2, 1, 3], AllSlots()[4..], [5, 5, 7, 8], [Foo, Foo, Foo, Bar]) && s4.now == 3
    requires s4.slots[5].ticks == 0 && s4.slots[2].used
    ensures InsertReady(s4) && s4.mgr.totalCallBacks == 4
    ensures s5 == RequestAlarmAsWritten(s4, 3, Baz).0
    ensures RequestedAsWritten(s5)
  {
    InsertBazAsWritten(s4);
    RequestAtThree(s4, 3, Baz);
    var A := AllSlots();
    assert 1 !in A[5..] by {
      forall i | 0 <= i < |A[5..]| ensures A[5..][i] != 1 { assert A[5..][i] == i + 5; }
    }
    s5 := RequestAlarmAsWritten(s4, 3, Baz).0;
  }

  /** The five requests of the example, as written, one after the other. */
  lemma ScenarioRequestsAsWritten(s0: State) returns (s5: State)
    requires Booted(s0)
    ensures InsertReady(s0)
    ensures var s1 := RequestAlarmAsWritten(s0, 2, Foo).0;
      InsertReady(s1) && var s2 := RequestAlarmAsWritten(s1, 4, Foo).0;
      InsertReady(s2) && var s3 := RequestAlarmAsWritten(s2, 2, Foo).0;
      InsertReady(s3) && var s4 := RequestAlarmAsWritten(s3, 5, Bar).0;
      InsertReady(s4) && s5 == RequestAlarmAsWritten(s4, 3, Baz).0
    ensures RequestedAsWritten(s5)
  {
    var s1 := FirstAsWritten(s0);
    var s2 := SecondAsWritten(s1);
    var s3 := ThirdAsWritten(s2);
    var s4 := FourthAsWritten(s3);
    s5 := FifthAsWritten(s4);
  }

  /** The two ticks that follow, as written. At tick 4 nothing is due. At
      tick 5 the head foo is called, and timer.c:181 then makes the old free
      head (slot 5, never scheduled) the used head: the second tick-5 foo,
      still marked used, is never called, and the count reads four. */
  lemma ScenarioTicksAsWritten(s: State)
    requires RequestedAsWritten(s)
    ensures TickReady(s)
    ensures var (t1, fired1) := TickAsWritten(s);
      fired1 == [] && t1.now == 4 && t1.slots == s.slots &&
      TickReady(t1) &&
      var (t2, fired2) := TickAsWritten(t1);
      fired2 == [Foo] && t2.now == 5 && t2.mgr == Manager(5, 0, 4) &&
      t2.slots[2].used && t2.slots[2].ticks == 5 && t2.slots[2].callBackFun == Foo &&
      !HeadDue(t2)
  {
    assert TicksOf(s.slots, [0, 2, 4, 3])[0] == s.slots[0].ticks;
    assert TicksOf(s.slots, [0, 2, 4, 3])[1] == s.slots[2].ticks;
    assert CallBacksOf(s.slots, [0, 2, 4, 3])[0] == s.slots[0].callBackFun;
    assert CallBacksOf(s.slots, [0, 2, 4, 3])[1] == s.slots[2].callBackFun;
    assert s.mgr.freeHead == 5 by { assert LinkAt(s.slots, AllSlots()[5..], 0); }
    var t1 := TickAsWritten(s).0;
    FireHeadIs(t1.(now := 5));
  }

  // ---------------------------------------------------------------- repaired

  /** One request at tick 3 through the repaired insert: its pair goes in at
      position `k`, the first whose tick is not below the new one. The
      expected lists are passed in already written out. */
  lemma CorrectedRequest(s: State, U: seq<int>, F: seq<int>, T: seq<int>, C: seq<CallBack>,
                         delay: U32, cb: CallBack, k: int, U': seq<int>, T': seq<int>, C': seq<CallBack>)
      returns (r: State)
    requires Pairs(s, U, F, T, C) && s.now == 3 && |U| < MaxCallBacks && cb != NullCallBack && delay < 100
    requires k == CountBelow(T, 3 + delay) && 0 < |F|
    requires U' == U[..k] + [F[0]] + U[k..] && T' == T[..k] + [3 + delay] + T[k..] && C' == C[..k] + [cb] + C[k..]
    ensures InsertReady(s) && s.mgr.totalCallBacks < MaxCallBacks
    ensures r == RequestAlarmCorrected(s, delay, cb).0
    ensures Pairs(r, U', F[1..], T', C') && r.now == 3
  {
    InsertCorrectedPairs(s, 3 + delay, cb, U, F);
    RequestAtThree(s, delay, cb);
    r := RequestAlarmCorrected(s, delay, cb).0;
  }

  /** Request (2, foo) repaired: slot 0, due at 5, is the whole used list. */
  lemma FirstCorrected(s0: State) returns (s1: State)
    requires Booted(s0)
    ensures InsertReady(s0)
    ensures s1 == RequestAlarmCorrected(s0, 2, Foo).0
    ensures Pairs(s1, [0], AllSlots()[1..], [5], [Foo]) && s1.now == 3
  {
    var A := AllSlots();
    assert TicksOf(s0.slots, []) == [] && CallBacksOf(s0.slots, []) == [] && A[0] == 0;
    s1 := CorrectedRequest(s0, [], A, [], [], 2, Foo, 0, [0], [5], [Foo]);
  }

  /** Request (4, foo) repaired: slot 1, due at 7, goes after slot 0. */
  lemma SecondCorrected(s1: State) returns (s2: State)
    requires Pairs(s1, [0], AllSlots()[1..], [5], [Foo]) && s1.now == 3
    ensures InsertReady(s1)
    ensures s2 == RequestAlarmCorrected(s1, 4, Foo).0
    ensures Pairs(s2, [0, 1], AllSlots()[2..], [5, 7], [Foo, Foo]) && s2.now == 3
  {
    var A := AllSlots();
    assert A[1..][1..] == A[2..] && A[1..][0] == 1;
    assert [0][..1] + [1] + [0][1..] == [0, 1] && [5][..1] + [7] + [5][1..] == [5, 7];
    assert [Foo][..1] + [Foo] + [Foo][1..] == [Foo, Foo];
    s2 := CorrectedRequest(s1, [0], A[1..], [5], [Foo], 4, Foo, 1, [0, 1], [5, 7], [Foo, Foo]);
  }

  /** Request (2, foo) repaired: slot 2, due at 5 like slot 0, goes in front of it. */
  lemma ThirdCorrected(s2: State) returns (s3: State)
    requires Pairs(s2, [0, 1], AllSlots()[2..], [5, 7], [Foo, Foo]) && s2.now == 3
    ensures InsertReady(s2)
    ensures s3 == RequestAlarmCorrected(s2, 2, Foo).0
    ensures Pairs(s3, [2, 0, 1], AllSlots()[3..], [5, 5, 7], [Foo, Foo, Foo]) && s3.now == 3
  {
    var A := AllSlots();
    assert A[2..][1..] == A[3..] && A[2..][0] == 2;
    assert [0, 1][..0] + [2] + [0, 1][0..] == [2, 0, 1] && [5, 7][..0] + [5] + [5, 7][0..] == [5, 5, 7];
    assert [Foo, Foo][..0] + [Foo] + [Foo, Foo][0..] == [Foo, Foo, Foo];
    s3 := CorrectedRequest(s2, [0, 1], A[2..], [5, 7], [Foo, Foo], 2, Foo, 0, [2, 0, 1], [5, 5, 7], [Foo, Foo, Foo]);
  }

  /** Request (5, bar) repaired: slot 3, due at 8, is appended. */
  lemma FourthCorrected(s3: State) returns (s4: State)
    requires Pairs(s3, [2, 0, 1], AllSlots()[3..], [5, 5, 7], [Foo, Foo, Foo]) && s3.now == 3
    ensures InsertReady(s3)
    ensures s4 == RequestAlarmCorrected(s3, 5, Bar).0
    ensures Pairs(s4, [2, 0, 1, 3], AllSlots()[4..], [5, 5, 7, 8], [Foo, Foo, Foo, Bar]) && s4.now == 3
  {
    var A := AllSlots();
    assert A[3..][1..] == A[4..] && A[3..][0] == 3;
    assert [2, 0, 1][..3] + [3] + [2, 0, 1][3..] == [2, 0, 1, 3];
    assert [5, 5, 7][..3] + [8] + [5, 5, 7][3..] == [5, 5, 7, 8];
    assert [Foo, Foo, Foo][..3] + [Bar] + [Foo, Foo, Foo][3..] == [Foo, Foo, Foo, Bar];
    s4 := CorrectedRequest(s3, [2, 0, 1], A[3..], [5, 5, 7], [Foo, Foo, Foo], 5, Bar, 3,
                           [2, 0, 1, 3], [5, 5, 7, 8], [Foo, Foo, Foo, Bar]);
  }

  /** Where the five requests leave the repaired scheduler: the used list is
      foo, foo, baz, foo, bar at ticks 5, 5, 6, 7, 8, and the invariants
      hold. A new tick equal to a scheduled one goes in front of it, so the
      second foo (slot 2) is ahead of the first (slot 0). */
  predicate RequestedCorrected(s: State)
  {
    s.now == 3 &&
    Pairs(s, [2, 0, 4, 1, 3], AllSlots()[5..], [5, 5, 6, 7, 8], [Foo, Foo, Baz, Foo, Bar])
  }

  /** Request (3, baz) repaired: slot 4, due at 6, goes between the tick-5
      entries and the tick-7 one. */
  lemma FifthCorrected(s4: State) returns (s5: State)
    requires Pairs(s4, [2, 0, 1, 3], AllSlots()[4..], [5, 5, 7, 8], [Foo, Foo, Foo, Bar]) && s4.now == 3
    ensures InsertReady(s4)
    ensures s5 == RequestAlarmCorrected(s4, 3, Baz).0
    ensures RequestedCorrected(s5)
  {
    var A := AllSlots();
    assert A[4..][1..] == A[5..] && A[4..][0] == 4;
    assert [2, 0, 1, 3][..2] + [4] + [2, 0, 1, 3][2..] == [2, 0, 4, 1, 3];
    assert [5, 5, 7, 8][..2] + [6] + [5, 5, 7, 8][2..] == [5, 5, 6, 7, 8];
    assert [Foo, Foo, Foo, Bar][..2] + [Baz] + [Foo, Foo, Foo, Bar][2..] == [Foo, Foo, Baz, Foo, Bar];
    s5 := CorrectedRequest(s4, [2, 0, 1, 3], A[4..], [5, 5, 7, 8], [Foo, Foo, Foo, Bar], 3, Baz, 2,
                           [2, 0, 4, 1, 3], [5, 5, 6, 7, 8], [Foo, Foo, Baz, Foo, Bar]);
  }

  /** The five requests of the example through the repaired insert. */
  lemma ScenarioRequestsCorrected(s0: State) returns (s5: State)
    requires Booted(s0)
    ensures InsertReady(s0)
    ensures var s1 := RequestAlarmCorrected(s0, 2, Foo).0;
      InsertReady(s1) && var s2 := RequestAlarmCorrected(s1, 4, Foo).0;
      InsertReady(s2) && var s3 := RequestAlarmCorrected(s2, 2, Foo).0;
      InsertReady(s3) && var s4 := RequestAlarmCorrected(s3, 5, Bar).0;
      InsertReady(s4) && s5 == RequestAlarmCorrected(s4, 3, Baz).0
    ensures RequestedCorrected(s5)
  {
    var s1 := FirstCorrected(s0);
    var s2 := SecondCorrected(s1);
    var s3 := ThirdCorrected(s2);
    var s4 := FourthCorrected(s3);
    s5 := FifthCorrected(s4);
  }

  /** The pairs of a list, cut in two at `j`, are the pairs of the two halves. */
  lemma PairsCut(slots: seq<Slot>, U: seq<int>, T: seq<int>, C: seq<CallBack>, j: int)
    requires InPool(slots, U) && TicksOf(slots, U) == T && CallBacksOf(slots, U) == C && 0 <= j <= |U|
    ensures InPool(slots, U[..j]) && InPool(slots, U[j..])
    ensures CallBacksOf(slots, U[..j]) == C[..j]
    ensures TicksOf(slots, U[j..]) == T[j..] && CallBacksOf(slots, U[j..]) == C[j..]
  {
    assert forall i :: 0 <= i < j ==> CallBacksOf(slots, U[..j])[i] == C[i];
    assert forall i :: 0 <= i < |U| - j ==> TicksOf(slots, U[j..])[i] == T[j + i];
    assert forall i :: 0 <= i < |U| - j ==> CallBacksOf(slots, U[j..])[i] == C[j + i];
  }

  /** One repaired tick in terms of pairs: the first `j` entries, those due
      at the new count, fire in order and move to the free list backwards;
      the rest keep their pairs. */
  lemma TickPairs(s: State, U: seq<int>, F: seq<int>, T: seq<int>, C: seq<CallBack>,
                  j: int, Due: seq<int>, Rest: seq<int>, Freed: seq<int>)
      returns (r: State, fired: seq<CallBack>)
    requires Pairs(s, U, F, T, C)
    requires j == DueCount(T, AddU32(s.now, 1))
    requires Due == U[..j] && Rest == U[j..] && Freed == Reversed(Due) + F
    ensures (r, fired) == TickCorrected(s)
    ensures r.now == AddU32(s.now, 1) && fired == C[..j] && Pairs(r, Rest, Freed, T[j..], C[j..])
  {
    TickCorrectedKeepsInvariant(s, U, F);
    PairsCut(s.slots, U, T, C, j);
    r, fired := TickCorrected(s).0, TickCorrected(s).1;
    TicksOfKept(s.slots, r.slots, Rest);
  }

  /** The first tick after the requests, repaired: nothing is due at 4. */
  lemma FirstTickCorrected(s: State) returns (t1: State)
    requires RequestedCorrected(s)
    ensures t1 == TickCorrected(s).0 && TickCorrected(s).1 == [] && t1.now == 4
    ensures Pairs(t1, [2, 0, 4, 1, 3], AllSlots()[5..], [5, 5, 6, 7, 8], [Foo, Foo, Baz, Foo, Bar])
  {
    var U, F := [2, 0, 4, 1, 3], AllSlots()[5..];
    assert AddU32(3, 1) == 4;
    assert DueCount([5, 5, 6, 7, 8], 4) == 0;
    assert U[..0] == [] && U[0..] == U && Reversed([]) + F == F;
    var _, _ := TickPairs(s, U, F, [5, 5, 6, 7, 8], [Foo, Foo, Baz, Foo, Bar], 0, [], U, F);
    assert [5, 5, 6, 7, 8][0..] == [5, 5, 6, 7, 8] && [Foo, Foo, Baz, Foo, Bar][0..] == [Foo, Foo, Baz, Foo, Bar];
    t1 := TickCorrected(s).0;
  }

  /** The list arithmetic of the tick at 5: two entries are due, and
      freeing them reverses their order. */
  lemma DueAtFive()
    ensures AddU32(4, 1) == 5 && DueCount([5, 5, 6, 7, 8], 5) == 2
    ensures Reversed([2, 0]) == [0, 2]
    ensures [2, 0, 4, 1, 3][..2] == [2, 0] && [2, 0, 4, 1, 3][2..] == [4, 1, 3]
    ensures [5, 5, 6, 7, 8][2..] == [6, 7, 8]
    ensures [Foo, Foo, Baz, Foo, Bar][..2] == [Foo, Foo] && [Foo, Foo, Baz, Foo, Bar][2..] == [Baz, Foo, Bar]
  {
    assert [5, 5, 6, 7, 8][1..] == [5, 6, 7, 8] && [5, 6, 7, 8][1..] == [6, 7, 8];
    assert [2, 0][1..] == [0] && [0][1..] == [];
  }

  /** The second tick, repaired: both foos due at 5 are called in one
      interrupt, their slots go to the front of the free list (the one fired
      last on top), and baz, foo, bar remain scheduled in order. */
  lemma SecondTickCorrected(t1: State)
    requires t1.now == 4
    requires Pairs(t1, [2, 0, 4, 1, 3], AllSlots()[5..], [5, 5, 6, 7, 8], [Foo, Foo, Baz, Foo, Bar])
    ensures var (t2, fired) := TickCorrected(t1);
      fired == [Foo, Foo] && t2.now == 5 &&
      Pairs(t2, [4, 1, 3], [0, 2] + AllSlots()[5..], [6, 7, 8], [Baz, Foo, Bar])
  {
    DueAtFive();
    var F := AllSlots()[5..];
    var _, _ := TickPairs(t1, [2, 0, 4, 1, 3], F, [5, 5, 6, 7, 8], [Foo, Foo, Baz, Foo, Bar],
                          2, [2, 0], [4, 1, 3], [0, 2] + F);
  }

  /** The two ticks that follow the repaired requests. */
  lemma ScenarioTicksCorrected(s: State)
    requires RequestedCorrected(s)
    ensures var (t1, fired1) := TickCorrected(s);
      fired1 == [] && t1.now == 4 &&
      var (t2, fired2) := TickCorrected(t1);
      fired2 == [Foo, Foo] && t2.now == 5 &&
      Pairs(t2, [4, 1, 3], [0, 2] + AllSlots()[5..], [6, 7, 8], [Baz, Foo, Bar])
  {
    var t1 := FirstTickCorrected(s);
    SecondTickCorrected(t1);
  }
}

=== FILE: static_lists.dfy ===
/** Singly-linked lists threaded through the slot pool by 8-bit `next` indices
    (the "static linked lists" of timer.c), and the facts about them that the
    scheduler's invariants are built from. */
module StaticLists {
  import opened TimerH

  datatype Option<T> = None | Some(value: T)

  /** Every slot index in ascending order: the free list right after initialisation. */
  function AllSlots(): (all: seq<int>)
    ensures |all| == MaxCallBacks && forall i :: 0 <= i < MaxCallBacks ==> all[i] == i
  {
    seq(MaxCallBacks, i => i)
  }

  /** `L` is exactly the list reached from `head` by following `next` until the
      sentinel: each element is a valid index and links to its successor, the
      last one to the sentinel. */
  predicate IsChain(slots: seq<Slot>, head: int, L: seq<int>)
  {
    (|L| == 0 ==> head == NullSentinel) &&
    (|L| > 0 ==> L[0] == head) &&
    InPool(slots, L) &&
    forall i :: 0 <= i < |L| ==> LinkAt(slots, L, i)
  }

  /** Every element of `L` indexes the pool. */
  predicate InPool(slots: seq<Slot>, L: seq<int>)
  {
    forall i :: 0 <= i < |L| ==> 0 <= L[i] < |slots|
  }

  /** The `i`-th element of `L` is a valid slot whose `next` is the `i+1`-th,
      or the sentinel at the end. */
  predicate LinkAt(slots: seq<Slot>, L: seq<int>, i: int)
    requires 0 <= i < |L|
  {
    0 <= L[i] < |slots| && L[i] != NullSentinel &&
    slots[L[i]].next == if i + 1 < |L| then L[i + 1] else NullSentinel
  }

  /** Walks `next` from `head` for at most `fuel` slots. `None` when the walk
      leaves the pool or does not reach the sentinel in time (a cycle). */
  function ListFrom(slots: seq<Slot>, head: int, fuel: nat): (r: Option<seq<int>>)
    ensures r.Some? ==> |r.value| <= fuel && IsChain(slots, head, r.value)
    decreases fuel
  {
    if head == NullSentinel then Some([])
    else if !(0 <= head < |slots|) || fuel == 0 then None
    else
      match ListFrom(slots, slots[head].next, fuel - 1)
      case None => None
      case Some(tail) =>
        ChainCons(slots, head, tail);
        Some([head] + tail)
  }

  /** A valid slot in front of the chain that starts at its successor. */
  lemma ChainCons(slots: seq<Slot>, head: int, T: seq<int>)
    requires 0 <= head < |slots| && head != NullSentinel
    requires IsChain(slots, slots[head].next, T)
    ensures IsChain(slots, head, [head] + T)
  {
    var L := [head] + T;
    forall i | 0 <= i < |L|
      ensures LinkAt(slots, L, i) && 0 <= L[i] < |slots|
    {
      if i > 0 {
        assert LinkAt(slots, T, i - 1);
        assert L[i] == T[i - 1];
        if i + 1 < |L| { assert L[i + 1] == T[i]; }
      } else if |T| > 0 {
        assert L[1] == T[0];
      }
    }
  }

  /** Popping the head of a chain leaves the chain from its successor. */
  lemma ChainTail(slots: seq<Slot>, head: int, L: seq<int>)
    requires IsChain(slots, head, L) && |L| > 0
    ensures 0 <= head < |slots| && head != NullSentinel
    ensures IsChain(slots, slots[head].next, L[1..])
  {
    assert LinkAt(slots, L, 0);
    var T := L[1..];
    forall i | 0 <= i < |T|
      ensures LinkAt(slots, T, i) && 0 <= T[i] < |slots|
    {
      assert LinkAt(slots, L, i + 1);
      assert T[i] == L[i + 1];
      if i + 1 < |T| { assert T[i + 1] == L[i + 2]; }
    }
    if |T| > 0 { assert T[0] == L[1]; }
  }

  /** Conversely, a chain that is no longer than the fuel is what the walk finds. */
  lemma {:induction false} ChainListFrom(slots: seq<Slot>, head: int, L: seq<int>, fuel: nat)
    requires IsChain(slots, head, L) && |L| <= fuel
    ensures ListFrom(slots, head, fuel) == Some(L)
    decreases fuel
  {
    if |L| > 0 {
      ChainTail(slots, head, L);
      ChainListFrom(slots, slots[head].next, L[1..], fuel - 1);
      assert L == [head] + L[1..];
    }
  }

  /** A head and the slot contents determine the list. */
  lemma ChainUnique(slots: seq<Slot>, head: int, L1: seq<int>, L2: seq<int>)
    requires IsChain(slots, head, L1) && IsChain(slots, head, L2)
    ensures L1 == L2
  {
    var fuel := if |L1| < |L2| then |L2| else |L1|;
    ChainListFrom(slots, head, L1, fuel);
    ChainListFrom(slots, head, L2, fuel);
  }

  /** Slot `x` has the same link in both pools. */
  predicate NextKept(slots: seq<Slot>, slots': seq<Slot>, x: int)
  {
    0 <= x < |slots| && 0 <= x < |slots'| && slots'[x].next == slots[x].next
  }

  /** Slot `x` of the pool links to `v`. */
  predicate NextIs(slots: seq<Slot>, x: int, v: int)
  {
    0 <= x < |slots| && slots[x].next == v
  }

  /** A chain survives any change that leaves its elements' links alone. */
  lemma ChainFrame(slots: seq<Slot>, slots': seq<Slot>, head: int, L: seq<int>)
    requires IsChain(slots, head, L) && |slots'| == |slots|
    requires forall i :: 0 <= i < |L| ==> NextKept(slots, slots', L[i])
    ensures IsChain(slots', head, L)
  {
    forall i | 0 <= i < |L|
      ensures LinkAt(slots', L, i) && 0 <= L[i] < |slots'|
    {
      assert LinkAt(slots, L, i);
    }
  }

  /** Pushing slot `n` in front of a chain. */
  lemma ChainPush(slots: seq<Slot>, slots': seq<Slot>, head: int, L: seq<int>, n: int)
    requires IsChain(slots, head, L) && |slots'| == |slots|
    requires 0 <= n < |slots| && n != NullSentinel
    requires NextIs(slots', n, head)
    requires forall i :: 0 <= i < |L| ==> NextKept(slots, slots', L[i])
    ensures IsChain(slots', n, [n] + L)
  {
    ChainFrame(slots, slots', head, L);
    ChainCons(slots', n, L);
  }

  /** Linking slot `n` after the non-empty prefix `A` of a chain `A + D + B`
      and before `B`; the part `D` (at most one slot) drops out. */
  lemma ChainSplice(slots: seq<Slot>, slots': seq<Slot>, head: int, A: seq<int>, D: seq<int>, B: seq<int>, n: int)
    requires IsChain(slots, head, A + D + B) && |slots'| == |slots|
    requires |A| > 0 && |D| <= 1
    requires 0 <= n < |slots| && n != NullSentinel
    requires NextIs(slots', A[|A| - 1], n)
    requires NextIs(slots', n, if |B| == 0 then NullSentinel else B[0])
    requires forall i :: 0 <= i < |A| - 1 ==> NextKept(slots, slots', A[i])
    requires forall i :: 0 <= i < |B| ==> NextKept(slots, slots', B[i])
    ensures IsChain(slots', head, A + [n] + B)
  {
    var L := A + D + B;
    var L' := A + [n] + B;
    assert L'[0] == A[0] == L[0];
    forall i | 0 <= i < |L'|
      ensures LinkAt(slots', L', i) && 0 <= L'[i] < |slots'|
    {
      if i < |A| - 1 {
        assert LinkAt(slots, L, i);
        assert L'[i] == L[i] == A[i] && L'[i + 1] == L[i + 1];
      } else if i == |A| - 1 {
        assert LinkAt(slots, L, i);
        assert L'[i] == A[|A| - 1] == L[i];
      } else if i == |A| {
        assert L'[i] == n;
        if |B| > 0 { assert L'[i + 1] == B[0]; }
      } else {
        var j := i - |A| - 1;
        assert LinkAt(slots, L, |A| + |D| + j);
        assert L'[i] == B[j] == L[|A| + |D| + j];
        if i + 1 < |L'| { assert L'[i + 1] == B[j + 1] == L[|A| + |D| + j + 1]; }
      }
    }
  }

  predicate Distinct(L: seq<int>)
  {
    forall i, j :: 0 <= i < j < |L| ==> L[i] != L[j]
  }

  lemma {:induction false} DistinctMultiplicity(L: seq<int>)
    requires Distinct(L)
    ensures forall x :: multiset(L)[x] <= 1
  {
    if |L| > 0 {
      var T := L[1..];
      assert Distinct(T) by {
        forall i, j | 0 <= i < j < |T| ensures T[i] != T[j] {
          assert T[i] == L[i + 1] && T[j] == L[j + 1];
        }
      }
      DistinctMultiplicity(T);
      assert L == [L[0]] + T;
      assert L[0] !in T by {
        forall j | 0 <= j < |T| ensures T[j] != L[0] {
          assert T[j] == L[j + 1];
        }
      }
    }
  }

  lemma MultiplicityOfRepeat(L: seq<int>, i: int, j: int)
    requires 0 <= i < j < |L| && L[i] == L[j]
    ensures multiset(L)[L[i]] >= 2
  {
    assert L == L[..j] + L[j..];
    assert L[i] in L[..j];
    assert L[j] == L[j..][0];
    assert multiset(L) == multiset(L[..j]) + multiset(L[j..]);
  }

  lemma MultiplicityDistinct(L: seq<int>)
    requires forall x :: multiset(L)[x] <= 1
    ensures Distinct(L)
  {
    forall i, j | 0 <= i < j < |L|
      ensures L[i] != L[j]
    {
      if L[i] == L[j] {
        MultiplicityOfRepeat(L, i, j);
      }
    }
  }

  /** The free list and the used list together hold every slot exactly once. */
  predicate Partition(U: seq<int>, F: seq<int>)
  {
    multiset(U + F) == multiset(AllSlots())
  }

  /** Moving the head of `F` in between the two halves of the other list
      keeps the partition. */
  lemma PartitionSplice(A: seq<int>, B: seq<int>, F: seq<int>)
    requires Partition(A + B, F) && |F| > 0
    ensures Partition(A + [F[0]] + B, F[1..])
  {
    assert F == [F[0]] + F[1..];
    assert multiset(A + [F[0]] + B + F[1..]) == multiset(A + B + F);
  }

  lemma PartitionFacts(U: seq<int>, F: seq<int>)
    requires Partition(U, F)
    ensures |U| + |F| == MaxCallBacks
    ensures Distinct(U) && Distinct(F)
    ensures forall x :: x in U ==> x !in F
    ensures forall x :: x in U + F <==> 0 <= x < MaxCallBacks
  {
    assert |multiset(U + F)| == |U + F|;
    assert Distinct(AllSlots());
    DistinctMultiplicity(AllSlots());
    assert multiset(U + F) == multiset(U) + multiset(F);
    forall x
      ensures multiset(U)[x] <= 1 && multiset(F)[x] <= 1
      ensures x in U ==> x !in F
    {
      assert multiset(U + F)[x] == multiset(U)[x] + multiset(F)[x];
    }
    MultiplicityDistinct(U);
    MultiplicityDistinct(F);
    forall x | 0 <= x < MaxCallBacks
      ensures x in U + F
    {
      assert AllSlots()[x] == x;
      assert x in multiset(AllSlots());
    }
    forall x | x in U + F
      ensures 0 <= x < MaxCallBacks
    {
      assert x in multiset(AllSlots());
    }
  }

  /** The fire ticks along a list of in-range indices. */
  function TicksOf(slots: seq<Slot>, L: seq<int>): (t: seq<int>)
    requires InPool(slots, L)
    ensures |t| == |L| && forall i :: 0 <= i < |L| ==> t[i] == slots[L[i]].ticks
  {
    seq(|L|, i requires 0 <= i < |L| => slots[L[i]].ticks)
  }

  /** The callbacks along a list of in-range indices. */
  function CallBacksOf(slots: seq<Slot>, L: seq<int>): (c: seq<CallBack>)
    requires InPool(slots, L)
    ensures |c| == |L| && forall i :: 0 <= i < |L| ==> c[i] == slots[L[i]].callBackFun
  {
    seq(|L|, i requires 0 <= i < |L| => slots[L[i]].callBackFun)
  }

  predicate Sorted(t: seq<int>)
  {
    forall i, j :: 0 <= i < j < |t| ==> t[i] <= t[j]
  }

  /** Length of the leading run of ticks strictly below `time`: where the
      sorted insert of timer.c stops its scan. */
  function CountBelow(t: seq<int>, time: int): (k: nat)
    ensures k <= |t|
    ensures forall j :: 0 <= j < k ==> t[j] < time
    ensures k < |t| ==> t[k] >= time
  {
    if |t| == 0 || t[0] >= time then 0 else 1 + CountBelow(t[1..], time)
  }
}

=== FILE: timer_h.dfy ===
/** Constants and record types of the alarm scheduler's header (timer.h). */
module TimerH {

  /** Size of the static callback pool. */
  const MaxCallBacks: int := 64

  /** The index value that ends a linked list ("no next slot"). */
  const NullSentinel: int := 0xFF

  /** Number of distinct values of an unsigned 8-bit and 32-bit field. */
  const Uint8Modulus: int := 0x100
  const Uint32Modulus: int := 0x1_0000_0000
  const Uint32Max: int := Uint32Modulus - 1

  /** `uint8_t` and `uint32_t` as ranges of the unbounded integers. */
  type U8 = x: int | 0 <= x < Uint8Modulus
  type U32 = x: int | 0 <= x < Uint32Modulus

  /** A callback is an opaque handle; 0 stands for the NULL function pointer. */
  type CallBack = nat
  const NullCallBack: CallBack := 0

  /** `timerCallBack_t`: one slot of the pool. */
  datatype Slot = Slot(ticks: U32, next: U8, used: bool, callBackFun: CallBack)

  /** `callBackManager_t`: the heads of the two lists and the number of scheduled callbacks. */
  datatype Manager = Manager(usedHead: U8, freeHead: U8, totalCallBacks: U8)

  /** A slot handle is a valid index into the pool; the pool is smaller than the
      sentinel, so no valid handle can be mistaken for the end of a list. */
  predicate IsSlotIndex(i: int): (r: bool)
    ensures r ==> i != NullSentinel && 0 <= i < Uint8Modulus
  {
    0 <= i < MaxCallBacks
  }

  /** Wrap-around arithmetic of the two unsigned widths used by the source. */
  function AddU32(a: int, b: int): (r: U32)
    ensures 0 <= a && 0 <= b && a + b < Uint32Modulus ==> r == a + b
    ensures 0 <= a < Uint32Modulus && 0 <= b < Uint32Modulus && Uint32Modulus <= a + b ==> r == a + b - Uint32Modulus
  {
    (a + b) % Uint32Modulus
  }

  function IncU8(a: U8): (r: U8)
    ensures a < Uint8Modulus - 1 ==> r == a + 1
    ensures a == Uint8Modulus - 1 ==> r == 0
  {
    (a + 1) % Uint8Modulus
  }

  function DecU8(a: U8): (r: U8)
    ensures a > 0 ==> r == a - 1
    ensures a == 0 ==> r == Uint8Modulus - 1
  {
    (a - 1) % Uint8Modulus
  }
}
